=== FILE: README.md ===
# Movie-Manager in Dafny

A model of the logic of Movie-Manager, a React app that keeps a personal
list of movies and shows. Each item sits on one of three tabs: "Want to
Watch" (`not-seen`), "Watching" (`watching`) or "Watched" (`seen`). The app
rates and reviews watched items and recommends what to watch next. It also
fills in item details from TMDB, the movie database web service.

The model covers:

- the collection store (`useMovieStore`): add, status change, rating, shallow
  merge and delete, as pure functions over a sequence of items;
- the recommendation engine: the random, genre-based and rating-based
  strategies, their fallbacks to random, the stable descending sort, and the
  dispatcher;
- the decisions buried in the components: the tabs and their counts, the
  "Recommend Me" button, the card buttons and badge, the filter toggles and
  active-filter count, the genre browser's counts, the add form's guard and
  poster default, the edit dialog's defaults and merge, the rating dialog's
  save guard, and the ten-star widget's fill rule;
- the TMDB service's key handling, its choice between real and mock results,
  and its formatters.

Modules, one per source file: `Movies` (the item record and JavaScript
truthiness), `MovieStore`, `Ranking` (scored candidates and the sort),
`Recommendations`, `MovieList`, `MovieCard`, `FilterPanel`, `Toggles` (the
toggle three components share), `GenreBrowser`, `MovieForm`,
`EditMovieModal`, `RatingWidget`, `RatingModal`, `Tmdb` and `SettingsKeyTest`.
Helpers: `Wrappers` (`Option`), `Seqs` (`filter`, `slice`) and `Text`
(`trim`, `replace`, `toUpperCase`, `split`, number rendering).

Conventions:

- A property that may be missing from a stored object is an `Option`.
- JavaScript truthiness is written out (`TruthyText`, `TruthyInt`,
  `TruthyReal`). For example, `m.rating && …` treats a missing rating and a
  rating of 0 alike.
- `Math.random()` is a parameter `rnd` with `0 <= rnd < 1`. The index it
  picks is `Floor(rnd * n)`, as in the source. Every index can be reached
  (`PickIndexReachesEvery`).
- The parts the model cannot see are parameters: the fresh id, the clock,
  `encodeURIComponent`, and the outcome of an HTTP request.

Notes on the code:

- The rating strategies read ratings whatever the item's status. An item
  rated 7 or more and then moved back to Watching keeps its rating and still
  feeds the genre weights and the preferred genres (recommendations.js:23,
  recommendations.js:82).
- The genre strategy picks among the first `min(3, n)` sorted candidates,
  zero scorers included (recommendations.js:57-61). So a candidate that
  shares no genre can be returned while another one scores
  (`ZeroScoreCandidateCanBeReturned`).
- The list page filters by status only (MovieList.jsx:20). The filter panel
  builds the filter object and its badge count, and applies none of it to a
  list.

## Model

| member | source | states |
|---|---|---|
| `MovieStore.AddMovie` | src/store/useMovieStore.js:8-10 | appends exactly one item at the end; earlier items are unchanged; the new item has the fresh id, status not-seen and the creation time, whatever the draft carried; all its other properties come from the draft |
| `MovieStore.UpdateMovieStatus` | src/store/useMovieStore.js:11-13 | the items with the id get the new status and nothing else changes; length and order are kept |
| `MovieStore.RateMovie` | src/store/useMovieStore.js:14-16 | the items with the id get rating, review and watch date and move to seen; every other property and item is unchanged |
| `MovieStore.Merge` | src/store/useMovieStore.js:18 | shallow merge: each property the update carries overwrites; every other property of the item is kept |
| `MovieStore.UpdateMovie` | src/store/useMovieStore.js:17-19 | the items with the id become the merge with the updates; other items and the length are unchanged |
| `MovieStore.DeleteMovie` | src/store/useMovieStore.js:20-22 | no remaining item has the id; every item with another id remains |
| `MovieStore.DeleteKeepsOrder` | src/store/useMovieStore.js:21 | deleting distributes over concatenation, so the survivors keep their relative order |
| `MovieStore.DeleteAbsentIsNoop` | src/store/useMovieStore.js:21 | deleting an id no item has leaves the list unchanged |
| `MovieStore.AddThenDeleteRestores` | src/store/useMovieStore.js:8-22 | deleting the item just added, by its fresh id, restores the list |
| `MovieStore.UpdatesKeepIds` | src/store/useMovieStore.js:11-19 | the three updates keep the sequence of ids; for the merge, when the update carries no id |
| `MovieStore.UpdatesOfAbsentIdAreNoops` | src/store/useMovieStore.js:11-19 | status change, rating and merge for an id no item has change nothing |
| `MovieStore.EmptyUpdateIsNoop` | src/store/useMovieStore.js:17-19 | merging an update with no properties changes nothing |
| `MovieStore.StoreKeepsIdsUnique` | src/store/useMovieStore.js:8-22 | all five operations keep ids distinct: add needs a fresh id, merge an update without id |
| `MovieStore.DeleteKeepsIdsUnique` | src/store/useMovieStore.js:20-22 | deleting keeps ids distinct |
| `Recommendations.PickIndex` | src/lib/recommendations.js:11 | `Math.floor(Math.random() * n)` is an index below `n` |
| `Recommendations.RandomRecommendation` | src/lib/recommendations.js:6-13 | null exactly when no item is not-seen; otherwise a not-seen item of the collection |
| `Recommendations.RandomReachesEveryCandidate` | src/lib/recommendations.js:11-12 | every not-seen item is the random pick for some draw |
| `Recommendations.GenreScoresAreWeights` | src/lib/recommendations.js:23-38 | the table built by the nested `forEach` gives each genre the sum, over items rated 7 or more (any status), of rating times the number of times they list it; unknown genres get 0 |
| `Ranking.ScoreAll` | src/lib/recommendations.js:41-49 | one `{ movie, score }` record per candidate, in list order, scored by the strategy's function |
| `Recommendations.GenreCandidateScore` | src/lib/recommendations.js:41-49 | a candidate's genre score is the sum of the weights of its genre entries |
| `Recommendations.AffinityIsNonNegative` | src/lib/recommendations.js:41-49 | genre scores are never negative, since only ratings of 7 or more are added |
| `Recommendations.GenreBasedRecommendation` | src/lib/recommendations.js:18-62 | null exactly when no item is not-seen; otherwise a not-seen item; with its lemmas, a random one of the top `min(3, n)` sorted candidates, any of which can be drawn |
| `Recommendations.GenreFallsBackToRandom` | src/lib/recommendations.js:25-57 | with no item rated 7 or more, or with every candidate scoring 0, the genre strategy is the random strategy |
| `Recommendations.GenreTopScoreIsPositive` | src/lib/recommendations.js:52-54 | when some candidate scores, the head of the sorted candidates scores above 0, so there is no fallback |
| `Recommendations.GenrePicksFromTopThree` | src/lib/recommendations.js:52-61 | otherwise the result is a candidate that fewer than three others outrank in the stable descending sort: one of the first `min(3, n)`; any of them can be drawn (`GenreReachesEveryTopCandidate`) |
| `Recommendations.GenreReachesEveryTopCandidate` | src/lib/recommendations.js:51-61 | when the top score is positive, each of the first `min(3, n)` sorted candidates is returned for some draw of `Math.random()` |
| `Recommendations.ZeroScoreCandidateCanBeReturned` | src/lib/recommendations.js:54-61 | with one candidate scoring 9 and one scoring 0, the draw 0.5 returns the one scoring 0 |
| `Recommendations.PreferredGenres` | src/lib/recommendations.js:82-89 | the preferred set holds exactly the genres listed by some item rated 7 or more |
| `Recommendations.RatingCandidateScore` | src/lib/recommendations.js:91-106 | a candidate's score is 10 × its truthy TMDB rating plus 5 per genre entry in the preferred set; with no item rated 7 or more only the TMDB rating counts |
| `Recommendations.RatingScore` | src/lib/recommendations.js:91-106 | the score lies between ten times the truthy TMDB rating and that plus 5 per genre entry; with no preferred genre it is the TMDB part alone, and with every entry preferred it is the full bonus |
| `Recommendations.PreferredMatchesBounds` | src/lib/recommendations.js:101 | the matching genre entries are none when nothing is preferred, all when every entry is, and never more than the entries |
| `Recommendations.HighestRatedRecommendation` | src/lib/recommendations.js:67-117 | null exactly when no item is not-seen; otherwise a not-seen item |
| `Recommendations.HighestRatedPicksFirstBest` | src/lib/recommendations.js:72-116 | without any truthy rating the result is the random one; otherwise it is the first candidate with the highest score when that score is not 0, and the random one when it is |
| `Recommendations.Recommend` | src/lib/recommendations.js:122-131 | 'genre' and 'rating' select their strategies and any other name, the default 'random' included, selects random; null exactly when no item is not-seen |
| `Recommendations.DefaultIsRandom` | src/lib/recommendations.js:122-131 | called without an algorithm, `getRecommendation` is the random strategy |
| `Ranking.SortByScore` | src/lib/recommendations.js:52 | the sort permutes the scored candidates |
| `Ranking.SortRanks` | src/lib/recommendations.js:109 | the sort is stable and descending: a higher score, or an equal score and an earlier place in the list, comes first |
| `Ranking.OutrankedCountIsIndex` | src/lib/recommendations.js:59 | the element at sorted index `k` is outranked by exactly `k` candidates, so a prefix of the sort is the set of candidates outranked by fewer than its length |
| `Ranking.SortedHeadIsFirstBest` | src/lib/recommendations.js:109-116 | the head of the sort is the first candidate, in list order, with the highest score |
| `MovieList.Visible` | src/components/MovieList.jsx:20 | the shown list holds exactly the items with the active tab's status |
| `MovieList.VisibleKeepsOrder` | src/components/MovieList.jsx:20 | the shown list keeps store order |
| `MovieList.TabsPartition` | src/components/MovieList.jsx:14-18 | every item is on exactly one tab: the three tab sizes add up to the collection size |
| `MovieList.Counts` | src/components/MovieList.jsx:14-18 | each badge is the size of its tab and the badges sum to the number of items |
| `MovieList.HandleRecommend` | src/components/MovieList.jsx:22-30 | no recommendation when the not-seen list is empty; otherwise its element at a drawn index, the same item the random strategy picks |
| `MovieList.RecommendOffered` | src/components/MovieList.jsx:54 | the button is shown exactly on the not-seen tab while its badge count is above 0, so the list it draws from is never empty |
| `MovieList.InitialTabShowsWantToWatch` | src/components/MovieList.jsx:10-20 | the page opens on the not-seen tab, listing the not-seen items, with the button shown iff there is one |
| `MovieList.OfferedButtonRecommends` | src/components/MovieList.jsx:54-56 | whenever the button is shown (not-seen tab, non-empty list) pressing it yields a not-seen item |
| `MovieList.CardClick` | src/components/MovieList.jsx:79 | a card click opens the rating dialog, for that card's item, exactly on the watched tab |
| `MovieList.RatingMovesToWatchedTab` | src/components/MovieList.jsx:88-93 | after rating an item it is on the watched tab, and no item with its id is left on the not-seen tab |
| `MovieCard.Actions` | src/components/MovieCard.jsx:63-88 | "Mark as Seen" is shown iff the status is not seen, "Mark as Watching" iff it is not watching, Delete always |
| `MovieCard.Perform` | src/components/MovieCard.jsx:65-83 | the mark buttons call the status update with seen or watching for the card's id; Delete calls delete |
| `MovieCard.Target` | src/components/MovieCard.jsx:65-74 | the mark buttons lead to seen and watching, never to not-seen; delete leads to no status |
| `MovieCard.NextStatuses` | src/components/MovieCard.jsx:63-80 | a status is reachable from `s` iff some button shown for `s` leads to it |
| `MovieCard.NoWayBackToNotSeen` | src/components/MovieCard.jsx:63-80 | no button leads to not-seen; from not-seen the buttons reach {watching, seen}, from watching {seen}, from seen {watching} |
| `MovieCard.ButtonsNeverRestoreNotSeen` | src/components/MovieCard.jsx:63-80 | an item is not-seen after a mark button only if it was not-seen before |
| `MovieCard.MarkSeenLeavesRatingAbsent` | src/components/MovieCard.jsx:65 | marking an unrated item seen leaves a seen item without a rating |
| `MovieCard.NotSeenLabel` | src/components/MovieCard.jsx:34 | the badge of a not-seen item reads "NOT SEEN" |
| `MovieCard.WatchingLabel` | src/components/MovieCard.jsx:34 | the badge of a watching item reads "WATCHING" |
| `MovieCard.SeenLabel` | src/components/MovieCard.jsx:34 | the badge of a seen item reads "SEEN" |
| `MovieCard.StatusLabel` | src/components/MovieCard.jsx:34 | the badge has as many characters as the stored status text |
| `Text.Upper` | src/components/MovieCard.jsx:34 | `toUpperCase` maps each lower-case ASCII letter to its capital and keeps every other character |
| `MovieCard.PosterSrc` | src/components/MovieCard.jsx:27 | the poster if it is non-empty text, otherwise the placeholder address followed by the encoded title; never empty |
| `Text.ReplaceFirst` | src/components/MovieCard.jsx:34 | `replace` with a one-character pattern changes only the first occurrence |
| `Toggles.Toggle` | src/components/FilterPanel.jsx:24-26 | an absent value is appended once, at the end, after the list unchanged; a present value is removed everywhere, the other values keeping their order; the value is in the result iff it was not in the list |
| `Toggles.WithoutKeepsOrder` | src/components/FilterPanel.jsx:25 | removing a value from a concatenation removes it from each part, so the kept values stay in order |
| `Toggles.WithoutAbsentIsIdentity` | src/components/FilterPanel.jsx:25 | removing a value the list lacks gives back the list |
| `Toggles.ToggleTwiceRestoresAbsent` | src/components/FilterPanel.jsx:24-26 | toggling an absent value twice restores the list |
| `Toggles.ToggleTwiceMovesPresentToEnd` | src/components/FilterPanel.jsx:24-26 | toggling a present value twice keeps the same values and moves that one, once, to the end |
| `Toggles.ToggleKeepsDistinct` | src/components/FilterPanel.jsx:24-26 | toggling keeps a list free of repetitions |
| `Toggles.ToggleChangesLengthByOne` | src/components/FilterPanel.jsx:24-26 | on a list without repetitions a toggle removes or adds exactly one element |
| `FilterPanel.ToggleGenre` | src/components/FilterPanel.jsx:23-28 | only the genre list changes, and it is toggled |
| `FilterPanel.ToggleType` | src/components/FilterPanel.jsx:30-35 | only the type list changes, and it is toggled |
| `FilterPanel.SelectSort` | src/components/FilterPanel.jsx:91 | the sort select changes only `sortBy` |
| `FilterPanel.SlideMinRating` | src/components/FilterPanel.jsx:152 | the slider changes only `minRating` |
| `FilterPanel.ActiveFilterCount` | src/components/FilterPanel.jsx:17-21 | the count is at least the number of selected genres and types, at most two more, and 0 iff nothing is selected, the minimum rating is at most 0 and the sort is by date added |
| `FilterPanel.SortAndRatingMoveCount` | src/components/FilterPanel.jsx:17-21 | choosing a sort order swaps the old order's unit for the new one's (1 unless date added); sliding the rating swaps the old rating's unit for the new one's (1 when positive) |
| `FilterPanel.ToggleGenresAppends` | src/components/FilterPanel.jsx:17-28 | clicking unselected genres once each appends them in click order, changes nothing else, and raises the count by their number |
| `FilterPanel.ToggleMovesCountByOne` | src/components/FilterPanel.jsx:17-35 | with repetition-free lists each toggle moves the count by exactly one, down for a selected value and up otherwise |
| `FilterPanel.TogglesKeepListsDistinct` | src/components/FilterPanel.jsx:23-35 | toggles keep both lists free of repetitions |
| `GenreBrowser.FilterLengthIsCount` | src/components/GenreBrowser.jsx:17 | the filter's length is the per-item count of items listing the genre |
| `GenreBrowser.GenreCounts` | src/components/GenreBrowser.jsx:14-20 | the keys are exactly the ten vocabulary genres, each mapped to the number of items listing it |
| `GenreBrowser.CountsPerItem` | src/components/GenreBrowser.jsx:16-17 | an item adds one to a genre it lists, even when it lists it twice; an item without genres adds nothing; genres outside the vocabulary get no count |
| `GenreBrowser.BrowseList` | src/components/GenreBrowser.jsx:23-26 | empty while no genre is selected; otherwise exactly the items listing the genre, as many as its count, in store order (with `BrowseListKeepsOrder`) |
| `GenreBrowser.BrowseListKeepsOrder` | src/components/GenreBrowser.jsx:25 | the list of a concatenation is the concatenation of the lists: the browse list keeps store order |
| `GenreBrowser.BrowseListKeepsAllMatching` | src/components/GenreBrowser.jsx:25 | when every item lists the selected genre the list is the store itself, unchanged and in order |
| `GenreBrowser.BrowseListMatchesCount` | src/components/GenreBrowser.jsx:17-25 | the list under a vocabulary genre is as long as its count |
| `MovieForm.HandleGenreToggle` | src/components/MovieForm.jsx:21-28 | only the genre list changes, and it is toggled |
| `MovieForm.Draft` | src/components/MovieForm.jsx:34-37 | the object added carries the form's title, type and genres, and the entered poster or else the placeholder with the encoded title |
| `MovieForm.HandleSubmit` | src/components/MovieForm.jsx:30-41 | a blank or white-space title changes nothing; otherwise one not-seen, unrated item is appended with the untrimmed title and the poster default, and the form resets |
| `MovieForm.HandleSearch` | src/components/MovieForm.jsx:44-54 | a blank query changes nothing; otherwise the form becomes the query, type Movie, no genres and the search placeholder |
| `MovieForm.SearchThenSubmit` | src/components/MovieForm.jsx:30-54 | a search followed by a submit adds the queried title with the search placeholder as poster |
| `MovieForm.SubmitKeepsIdsUnique` | src/components/MovieForm.jsx:34-37 | a submit with a fresh id keeps ids distinct |
| `Text.TrimEmptyIffBlank` | src/components/MovieForm.jsx:32 | `!s.trim()` holds exactly when every character is white space |
| `EditMovieModal.InitialEditForm` | src/components/EditMovieModal.jsx:11-17 | the form copies title, year, runtime, genres and type, with falsy year, runtime, type replaced by '', '', 'Movie' and a missing genre list by [] |
| `EditMovieModal.HandleGenreToggle` | src/components/EditMovieModal.jsx:19-26 | only the genre list changes, and it is toggled |
| `EditMovieModal.ToPatch` | src/components/EditMovieModal.jsx:30 | the update object carries exactly the five form properties |
| `EditMovieModal.SubmitEdit` | src/components/EditMovieModal.jsx:28-32 | the edited item takes the five form values, an empty title included, and keeps id, status, rating, review, watch date, addition date, poster and TMDB rating; other items are unchanged |
| `EditMovieModal.UntouchedSubmitSetsType` | src/components/EditMovieModal.jsx:16-30 | submitting the untouched form gives an item without a type the type 'Movie' |
| `EditMovieModal.EditKeepsIdsUnique` | src/components/EditMovieModal.jsx:30 | editing keeps the ids, so it keeps them distinct |
| `RatingWidget.StarValues` | src/components/Rating.jsx:10-11 | ten stars, valued 1 to 10 in order |
| `RatingWidget.StarValuesAreStars` | src/components/Rating.jsx:10-11 | a value is a star's value iff it lies in 1..10 |
| `RatingWidget.Filled` | src/components/Rating.jsx:28 | a non-zero hover alone decides which stars fill (those up to it); with no hover and a missing or zero value no star fills |
| `RatingWidget.Lit` | src/components/Rating.jsx:28 | `hover \|\| value` is the hover when set, else the truthy value, else 0, and at most 10 |
| `RatingWidget.FilledStars` | src/components/Rating.jsx:10-28 | the filled stars are exactly the first `hover \|\| value` of the ten |
| `RatingWidget.FillIsPrefix` | src/components/Rating.jsx:28 | a filled star fills every lower star |
| `RatingWidget.NextHover` | src/components/Rating.jsx:22-23 | entering a star hovers it and leaving resets to 0, both only when not read-only |
| `RatingWidget.Clicked` | src/components/Rating.jsx:16-21 | a click reports its star's value iff the widget is editable and has an `onChange` |
| `RatingWidget.ReadOnlyNeverHovers` | src/components/Rating.jsx:22-28 | a read-only widget keeps hover 0, so its fill depends on the value alone |
| `RatingWidget.HoverIsZeroOrStar` | src/components/Rating.jsx:6-23 | the hover value is always 0 or a star value |
| `RatingModal.InitialRating` | src/components/RatingModal.jsx:9 | the dialog starts with the item's truthy rating, else 0 |
| `RatingModal.InitialReview` | src/components/RatingModal.jsx:10 | the dialog starts with the item's truthy review, else '' |
| `RatingModal.Open` | src/components/RatingModal.jsx:9-13 | the opening state: initial rating, initial review, and the stored watch date as a day or else today |
| `RatingModal.RatingStaysStar` | src/components/RatingModal.jsx:58 | fed by the star widget, the rating stays 0 or a value in 1..10 |
| `RatingModal.CanSave` | src/components/RatingModal.jsx:94 | save is enabled iff the rating is truthy (`disabled={!rating}`) |
| `RatingModal.Submit` | src/components/RatingModal.jsx:15-19 | with a non-zero rating the item gets rating, review and date and moves to seen; with rating 0 save is disabled and nothing changes |
| `RatingModal.SubmittedRatingIsStar` | src/components/RatingModal.jsx:9-19 | a saved rating lies in 1..10 when the stored one was missing, 0 or a star value; the review goes through unchanged |
| `Tmdb.NewService` | src/services/tmdbApi.js:4-6 | the service starts with the stored key, or '' when none is stored |
| `Tmdb.SetApiKey` | src/services/tmdbApi.js:8-11 | the service holds the key just set |
| `Tmdb.GetApiKey` | src/services/tmdbApi.js:13-15 | the key read back is empty exactly when the service has no key |
| `Tmdb.HasApiKey` | src/services/tmdbApi.js:17-19 | `!!this.apiKey`: the service has a key iff the key is truthy |
| `Tmdb.KeyRoundTrip` | src/services/tmdbApi.js:8-19 | the key read back is the key set last; the service has a key iff it is non-empty |
| `Tmdb.YearOf` | src/services/tmdbApi.js:74 | the year is the date's text before its first dash, missing when the date is |
| `Text.BeforeFirstOfJoin` | src/services/tmdbApi.js:74 | `split('-')[0]` of `y + '-' + rest` is `y` when `y` has no dash |
| `Tmdb.IsoDateYear` | src/services/tmdbApi.js:74-75 | the year of a date `y-rest` is `y` |
| `Tmdb.PosterUrl` | src/services/tmdbApi.js:76-78 | null for a missing or empty path, else the image base followed by the path |
| `Tmdb.MediaLabel` | src/services/tmdbApi.js:79 | 'TV Show' iff the media type is 'tv', 'Movie' otherwise |
| `Tmdb.FormatSearchResult` | src/services/tmdbApi.js:68-82 | a movie's title and release year, any other item's name and first-air year, the poster address and the label |
| `Tmdb.SearchResultsOf` | src/services/tmdbApi.js:36-39 | the first ten movie or show items, formatted, in their order |
| `Tmdb.Listable` | src/services/tmdbApi.js:37 | for a kept item the label is faithful: 'TV Show' iff it is a 'tv' item, 'Movie' iff it is a 'movie' item |
| `Seqs.Take` | src/services/tmdbApi.js:38 | `slice(0, n)`: the first `min(n, length)` elements, in order |
| `Tmdb.ResultsComeFromListable` | src/services/tmdbApi.js:36-39 | every real result comes from a movie or show item and has a TMDB id |
| `Tmdb.MockResults` | src/services/tmdbApi.js:104-116 | one result, titled by the query, labelled Movie, with id 'mock-' and the clock reading |
| `Tmdb.SearchMovies` | src/services/tmdbApi.js:21-44 | without a key, or when the request fails, the mock list; otherwise the real results |
| `Tmdb.MockIdIsNeverBare` | src/services/tmdbApi.js:108 | a mock id is never the bare 'mock-' |
| `Tmdb.FormatMovieDetails` | src/services/tmdbApi.js:84-102 | title and year as for a search result; a movie's runtime or a show's first episode run time; genre names or []; at most the first five cast names |
| `Tmdb.GetMovieDetails` | src/services/tmdbApi.js:46-66 | null exactly without a key or when the request fails; otherwise the formatted details |
| `Tmdb.DefaultDetailsAreMovie` | src/services/tmdbApi.js:46-61 | a details request without a media type is a movie request: labelled 'Movie', with the title and release year |
| `Tmdb.FormattersAgree` | src/services/tmdbApi.js:68-94 | asked with the item's own media type, both formatters give the same id, title, year, poster and label |
| `SettingsKeyTest.SaveAndTestAsWritten` | src/components/Settings.jsx:21-31 | after saving a non-empty key the test search runs and its verdict is the check as written; an empty key gets no verdict |
| `SettingsKeyTest.FailedKeyPassesAsWritten` | src/components/Settings.jsx:31 | as written, a key whose request fails is reported as working |
| `SettingsKeyTest.SaveAndTest` | src/components/Settings.jsx:21-31 | with the corrected check, a non-empty key passes iff the request succeeded and returned a movie or show |
| `SettingsKeyTest.FailedKeyFails` | src/components/Settings.jsx:31 | with the corrected check, a key whose request fails is reported as failing |

## Left out

- Rendering, CSS classes, animations, routing and navigation: they hold no decisions beyond those modelled.
- Persistence (the store's `persist` middleware and the key in `localStorage`): the list and the key are plain state; the stored key is the parameter of `Tmdb.NewService`.
- HTTP, JSON decoding and `async`: the outcome of a request is a parameter. A response whose body lacks `results` throws in the source and falls back to the mock list; the model counts it as `Failed`.
- `alert`, the dialog open/close state, timers and the settings screen's UI state.
- Randomness, the clock, `crypto.randomUUID` and `encodeURIComponent` are parameters. The fresh id is not drawn, so add needs it new to keep ids distinct.
- Floating point: TMDB ratings and scores are exact reals, and `Math.random()` is any real in [0, 1).
- Statuses other than the three the app writes: no code path of the app writes another status, so `Status` has exactly three values.
- `MovieStore.Merge`: an update can only overwrite a property; setting a property to `undefined` through a merge is not modelled.
- Properties the logic never reads (`overview`, `actors`, `director`, `tmdbId` on a stored item) are not part of `Movie`.
- `Text.Upper`: `toUpperCase` is modelled for ASCII letters only. The badges only contain ASCII.
- `Tmdb.FormatMovieDetails`: genre and cast entries are their names; an entry without a `name` is not modelled.
- `RatingWidget.Clicked`: a disabled (read-only) button receives no clicks, so it reports nothing even with an `onChange`.
- Genre names that collide with `Object.prototype` properties (such as `constructor`) in the genre score object are not modelled.
- The input list is never modified by the recommenders: the model is pure, so this holds by construction and has no lemma.
- Clearing the filters is a callback of the parent component, which is not part of this model.

## Findings

| source | as written | input that shows it | evidently intended | confidence | as-written member | corrected member |
|---|---|---|---|---|---|---|
| src/components/Settings.jsx:31 | the key test reports success when the first result's id is not the text 'mock-'; a mock id is always 'mock-' followed by a clock reading, so a mock list passes | any non-empty invalid key: the request fails, the search falls back to the mock list, and the test reports 'success' | report success only when the first result came from TMDB | high; not executed | `SettingsKeyTest.FailedKeyPassesAsWritten` | `SettingsKeyTest.SaveAndTest` |

=== FILE: edit_movie_modal.dfy ===
/** The edit dialog (src/components/EditMovieModal.jsx): the form it opens
    with, its genre toggle, and the merge its submit performs. */
module EditMovieModal {
  import opened Wrappers
  import opened Movies
  import opened MovieStore
  import opened Toggles

  /** The form state `{ title, year, runtime, genres, type }`. */
  datatype EditForm = EditForm(title: string, year: string, runtime: string, genres: seq<string>, kind: string)

  /** The form the dialog opens with: the item's values, with a falsy year,
      runtime or type replaced by `''`, `''` and `'Movie'`, and a missing genre
      list by `[]` (an empty list is truthy and is kept). */
  function InitialEditForm(m: Movie): (f: EditForm)
    ensures f.title == m.title
    ensures f.year == (if TruthyText(m.year) then m.year.value else "")
    ensures f.runtime == (if TruthyText(m.runtime) then m.runtime.value else "")
    ensures f.genres == GenresOf(m)
    ensures f.kind == (if TruthyText(m.kind) then m.kind.value else "Movie")
    ensures f.kind != ""
  {
    EditForm(
      m.title,
      if TruthyText(m.year) then m.year.value else "",
      if TruthyText(m.runtime) then m.runtime.value else "",
      m.genres.GetOr([]),
      if TruthyText(m.kind) then m.kind.value else "Movie")
  }

  /** `handleGenreToggle(genre)`: only the genre list changes, and it is toggled. */
  function HandleGenreToggle(f: EditForm, genre: string): (r: EditForm)
    ensures r.genres == Toggle(f.genres, genre)
    ensures r.(genres := f.genres) == f
  {
    f.(genres := Toggle(f.genres, genre))
  }

  /** The form as the update object: it always carries all five properties. */
  function ToPatch(f: EditForm): (u: Patch)
    ensures u.id.None? && u.status.None? && u.rating.None? && u.review.None?
    ensures u.watchedAt.None? && u.addedAt.None? && u.poster.None? && u.tmdbRating.None?
    ensures u.title == Some(f.title) && u.year == Some(f.year) && u.runtime == Some(f.runtime)
    ensures u.genres == Some(f.genres) && u.kind == Some(f.kind)
  {
    EmptyPatch.(title := Some(f.title), year := Some(f.year), runtime := Some(f.runtime),
                genres := Some(f.genres), kind := Some(f.kind))
  }

  /** `handleSubmit`: `updateMovie(movie.id, formData)`. The items with that id
      take the five form values (a blank title included: there is no guard) and
      keep every other property; every other item is unchanged. */
  function SubmitEdit(movies: seq<Movie>, movie: Movie, f: EditForm): (r: seq<Movie>)
    ensures |r| == |movies|
    ensures forall i :: 0 <= i < |movies| ==>
      if movies[i].id == movie.id
      then
        && r[i].title == f.title && r[i].year == Some(f.year) && r[i].runtime == Some(f.runtime)
        && r[i].genres == Some(f.genres) && r[i].kind == Some(f.kind)
        && r[i].(title := movies[i].title, year := movies[i].year, runtime := movies[i].runtime,
                 genres := movies[i].genres, kind := movies[i].kind) == movies[i]
      else r[i] == movies[i]
  {
    UpdateMovie(movies, movie.id, ToPatch(f))
  }

  /** Submitting the untouched form of an item without a type gives it type
      `'Movie'` and changes nothing else that was truthy. */
  lemma UntouchedSubmitSetsType(movies: seq<Movie>, i: nat)
    requires i < |movies|
    requires !TruthyText(movies[i].kind)
    ensures SubmitEdit(movies, movies[i], InitialEditForm(movies[i]))[i].kind == Some("Movie")
    ensures SubmitEdit(movies, movies[i], InitialEditForm(movies[i]))[i].title == movies[i].title
    ensures TruthyText(movies[i].year) ==>
      SubmitEdit(movies, movies[i], InitialEditForm(movies[i]))[i].year == movies[i].year
  {
  }

  /** Editing never changes an id, so it keeps ids distinct. */
  lemma EditKeepsIdsUnique(movies: seq<Movie>, movie: Movie, f: EditForm)
    requires UniqueIds(movies)
    ensures Ids(SubmitEdit(movies, movie, f)) == Ids(movies)
    ensures UniqueIds(SubmitEdit(movies, movie, f))
  {
    UpdatesKeepIds(movies, movie.id, NotSeen, 0, "", "", ToPatch(f));
    var r := SubmitEdit(movies, movie, f);
    forall i | 0 <= i < |r| ensures r[i].id == movies[i].id {
      assert Ids(r)[i] == Ids(movies)[i];
    }
  }
}

=== FILE: filter_panel.dfy ===
/** The filter object the filter panel edits (src/components/FilterPanel.jsx):
    genre and type toggles, the sort choice, the minimum rating and the number
    of active filters shown on the button. */
module FilterPanel {
  import opened Seqs
  import opened Toggles

  /** The sort order that does not count as a filter. */
  const DefaultSort := "dateAdded"

  /** The filter object `{ genres, types, minRating, sortBy }`. */
  datatype Filters = Filters(genres: seq<string>, types: seq<string>, minRating: int, sortBy: string)

  /** `toggleGenre(genre)`: the genre list is toggled, every other field is
      passed through. */
  function ToggleGenre(f: Filters, genre: string): (r: Filters)
    ensures r.genres == Toggle(f.genres, genre)
    ensures r.(genres := f.genres) == f
  {
    f.(genres := Toggle(f.genres, genre))
  }

  /** `toggleType(type)`: the type list is toggled, every other field is
      passed through. */
  function ToggleType(f: Filters, kind: string): (r: Filters)
    ensures r.types == Toggle(f.types, kind)
    ensures r.(types := f.types) == f
  {
    f.(types := Toggle(f.types, kind))
  }

  /** The sort select: only `sortBy` changes. */
  function SelectSort(f: Filters, sortBy: string): (r: Filters)
    ensures r.sortBy == sortBy && r.(sortBy := f.sortBy) == f
  {
    f.(sortBy := sortBy)
  }

  /** The rating slider (`parseInt` of a value in 0..10): only `minRating`
      changes. */
  function SlideMinRating(f: Filters, value: int): (r: Filters)
    requires 0 <= value <= 10
    ensures r.minRating == value && r.(minRating := f.minRating) == f
  {
    f.(minRating := value)
  }

  /** `activeFilterCount`: one per selected genre and type, one for a positive
      minimum rating and one for a sort order other than date added. It is zero
      exactly when the filter object selects nothing. */
  function ActiveFilterCount(f: Filters): (r: nat)
    ensures r >= |f.genres| + |f.types|
    ensures r <= |f.genres| + |f.types| + 2
    ensures r == 0 <==> |f.genres| == 0 && |f.types| == 0 && f.minRating <= 0 && f.sortBy == DefaultSort
  {
    |f.genres| + |f.types| + (if f.minRating > 0 then 1 else 0) + (if f.sortBy != DefaultSort then 1 else 0)
  }

  /** With repetition-free lists, every genre or type toggle moves the badge
      count by exactly one: down when the value was selected, up otherwise. */
  lemma ToggleMovesCountByOne(f: Filters, value: string)
    requires Distinct(f.genres) && Distinct(f.types)
    ensures ActiveFilterCount(ToggleGenre(f, value)) == ActiveFilterCount(f) + (if value in f.genres then -1 else 1)
    ensures ActiveFilterCount(ToggleType(f, value)) == ActiveFilterCount(f) + (if value in f.types then -1 else 1)
  {
    ToggleChangesLengthByOne(f.genres, value);
    ToggleChangesLengthByOne(f.types, value);
  }

  /** The sort select and the rating slider each own one unit of the badge
      count: choosing a sort order other than date added, or a positive
      minimum rating, counts one; the previous choice's unit is given back. */
  lemma SortAndRatingMoveCount(f: Filters, sortBy: string, value: int)
    requires 0 <= value <= 10
    ensures ActiveFilterCount(SelectSort(f, sortBy))
            == ActiveFilterCount(f) - (if f.sortBy != DefaultSort then 1 else 0) + (if sortBy != DefaultSort then 1 else 0)
    ensures ActiveFilterCount(SlideMinRating(f, value))
            == ActiveFilterCount(f) - (if f.minRating > 0 then 1 else 0) + (if value > 0 then 1 else 0)
  {
  }

  /** Clicking the genre buttons `gs` in turn. */
  function ToggleGenres(f: Filters, gs: seq<string>): Filters
    decreases |gs|
  {
    if |gs| == 0 then f else ToggleGenres(ToggleGenre(f, gs[0]), gs[1..])
  }

  /** Clicking genres not yet selected, each once, appends them in click order
      and raises the badge count by their number. */
  lemma {:induction false} ToggleGenresAppends(f: Filters, gs: seq<string>)
    requires Distinct(f.genres + gs)
    ensures ToggleGenres(f, gs).genres == f.genres + gs
    ensures ToggleGenres(f, gs).(genres := f.genres) == f
    ensures ActiveFilterCount(ToggleGenres(f, gs)) == ActiveFilterCount(f) + |gs|
    decreases |gs|
  {
    if |gs| > 0 {
      var g := gs[0];
      assert g == (f.genres + gs)[|f.genres|];
      assert g !in f.genres by {
        forall i | 0 <= i < |f.genres| ensures f.genres[i] != g {
          assert f.genres[i] == (f.genres + gs)[i];
        }
      }
      var f1 := ToggleGenre(f, g);
      assert f1.genres == f.genres + [g];
      assert f1.genres + gs[1..] == f.genres + gs;
      ToggleGenresAppends(f1, gs[1..]);
    }
  }

  /** Toggles keep the genre and type lists free of repetitions. */
  lemma TogglesKeepListsDistinct(f: Filters, value: string)
    requires Distinct(f.genres) && Distinct(f.types)
    ensures Distinct(ToggleGenre(f, value).genres) && Distinct(ToggleGenre(f, value).types)
    ensures Distinct(ToggleType(f, value).genres) && Distinct(ToggleType(f, value).types)
  {
    ToggleKeepsDistinct(f.genres, value);
    ToggleKeepsDistinct(f.types, value);
  }
}

=== FILE: genre_browser.dfy ===
/** The genre browser (src/components/GenreBrowser.jsx): a count per genre of
    the fixed vocabulary, and the items of the selected genre. */
module GenreBrowser {
  import opened Wrappers
  import opened Seqs
  import opened Movies

  /** The number of items whose genre list contains `g`, counted one item at a
      time: an item counts once however often it lists `g`, and an item
      without a genre list counts for nothing. */
  function CountWith(movies: seq<Movie>, g: string): nat
  {
    if |movies| == 0 then 0
    else (if HasGenre(movies[0], g) then 1 else 0) + CountWith(movies[1..], g)
  }

  /** `movies.filter(m => m.genres?.includes(genre)).length` is that count. */
  lemma {:induction false} FilterLengthIsCount(movies: seq<Movie>, g: string)
    ensures |Filter(WithGenre(g), movies)| == CountWith(movies, g)
  {
    if |movies| > 0 {
      assert movies == [movies[0]] + movies[1..];
      FilterConcat(WithGenre(g), [movies[0]], movies[1..]);
      FilterLengthIsCount(movies[1..], g);
    }
  }

  /** `genreCounts`: exactly the genres of the vocabulary are keys, and each
      maps to the number of items listing it. */
  function GenreCounts(movies: seq<Movie>): (r: map<string, nat>)
    ensures r.Keys == set g | g in Genres
    ensures forall g :: g in r ==> r[g] == CountWith(movies, g)
  {
    forall g ensures |Filter(WithGenre(g), movies)| == CountWith(movies, g) {
      FilterLengthIsCount(movies, g);
    }
    map g | g in Genres :: |Filter(WithGenre(g), movies)|
  }

  /** Counting is per item: an item listing a genre twice adds one, an item
      without a genre list adds nothing, and a genre outside the vocabulary has
      no count at all. */
  lemma CountsPerItem(movies: seq<Movie>, m: Movie, g: string)
    ensures HasGenre(m, g) ==> CountWith(movies + [m], g) == CountWith(movies, g) + 1
    ensures !HasGenre(m, g) ==> CountWith(movies + [m], g) == CountWith(movies, g)
    ensures m.genres.None? ==> CountWith(movies + [m], g) == CountWith(movies, g)
    ensures g !in Genres ==> g !in GenreCounts(movies + [m])
  {
    FilterLengthIsCount(movies + [m], g);
    FilterLengthIsCount(movies, g);
    FilterLengthIsCount([m], g);
    FilterConcat(WithGenre(g), movies, [m]);
  }

  /** `filteredMovies`: nothing while no genre is selected (the selection is
      `null`, or any falsy text); otherwise the items listing the selected genre,
      in store order. */
  function BrowseList(movies: seq<Movie>, selected: Option<string>): (r: seq<Movie>)
    ensures !TruthyText(selected) ==> r == []
    ensures TruthyText(selected) ==>
      && (forall i :: 0 <= i < |r| ==> HasGenre(r[i], selected.value) && r[i] in movies)
      && (forall i :: 0 <= i < |movies| && HasGenre(movies[i], selected.value) ==> movies[i] in r)
      && |r| == CountWith(movies, selected.value)
  {
    if !TruthyText(selected) then []
    else
      FilterLengthIsCount(movies, selected.value);
      Filter(WithGenre(selected.value), movies)
  }

  /** The browse list keeps store order: the list of a concatenation is the
      concatenation of the lists, so no item moves ahead of one stored before
      it. */
  lemma BrowseListKeepsOrder(a: seq<Movie>, b: seq<Movie>, selected: Option<string>)
    ensures BrowseList(a + b, selected) == BrowseList(a, selected) + BrowseList(b, selected)
  {
    if TruthyText(selected) {
      FilterConcat(WithGenre(selected.value), a, b);
    }
  }

  /** A store whose every item lists the selected genre is browsed whole and
      unchanged. */
  lemma BrowseListKeepsAllMatching(movies: seq<Movie>, g: string)
    requires g != ""
    requires forall i :: 0 <= i < |movies| ==> HasGenre(movies[i], g)
    ensures BrowseList(movies, Some(g)) == movies
  {
    FilterKeepsAll(WithGenre(g), movies);
  }

  /** The list under a selected genre of the vocabulary is as long as that
      genre's count. */
  lemma BrowseListMatchesCount(movies: seq<Movie>, g: string)
    requires g in Genres
    ensures |BrowseList(movies, Some(g))| == GenreCounts(movies)[g]
  {
  }
}

=== FILE: movie.dfy ===
/** The tracked item (a movie or show) as the collection store holds it, and the
    JavaScript truthiness tests the components apply to its optional fields. */
module Movies {
  import opened Wrappers
  import opened Seqs

  /** The watch status; it decides which tab lists the item. */
  datatype Status = NotSeen | Watching | Seen

  /** The text the app stores for a status. */
  function StatusText(s: Status): string
  {
    match s
    case NotSeen => "not-seen"
    case Watching => "watching"
    case Seen => "seen"
  }

  /** One tracked item. A field of type `Option` is a property that may be
      missing from the stored object. `kind` is the object's `type` property. */
  datatype Movie = Movie(
    id: string,
    title: string,
    kind: Option<string>,
    status: Status,
    genres: Option<seq<string>>,
    year: Option<string>,
    runtime: Option<string>,
    poster: Option<string>,
    rating: Option<int>,
    review: Option<string>,
    watchedAt: Option<string>,
    addedAt: Option<string>,
    tmdbRating: Option<real>)

  /** JavaScript truthiness of an optional text: missing and `''` are falsy. */
  predicate TruthyText(s: Option<string>)
  {
    s.Some? && s.value != ""
  }

  /** JavaScript truthiness of an optional number: missing and `0` are falsy. */
  predicate TruthyInt(n: Option<int>)
  {
    n.Some? && n.value != 0
  }

  /** JavaScript truthiness of an optional real number: missing and `0` are falsy. */
  predicate TruthyReal(x: Option<real>)
  {
    x.Some? && x.value != 0.0
  }

  /** The genre entries of an item; a missing list has none. */
  function GenresOf(m: Movie): seq<string>
  {
    m.genres.GetOr([])
  }

  /** `m.genres?.includes(g)`. */
  predicate HasGenre(m: Movie, g: string)
  {
    m.genres.Some? && g in m.genres.value
  }

  /** The filter predicate `m => m.genres?.includes(g)`. */
  function WithGenre(g: string): Movie -> bool
  {
    (m: Movie) => HasGenre(m, g)
  }

  /** The fixed genre vocabulary the add, edit, filter and browse screens offer. */
  const Genres: seq<string> := ["Action", "Comedy", "Drama", "Horror", "Sci-Fi",
                                "Romance", "Thriller", "Documentary", "Animation", "Fantasy"]

  /** The filter predicate `m => m.status === tab`. */
  function WithStatus(tab: Status): Movie -> bool
  {
    (m: Movie) => m.status == tab
  }

  /** The items with status `tab`, in store order. */
  function InStatus(movies: seq<Movie>, tab: Status): seq<Movie>
  {
    Filter(WithStatus(tab), movies)
  }

  /** The "Want to Watch" list: the candidate pool of every recommender. */
  function NotSeenPool(movies: seq<Movie>): seq<Movie>
  {
    InStatus(movies, NotSeen)
  }

  /** The ids of the items, in store order. */
  function Ids(movies: seq<Movie>): (r: seq<string>)
    ensures |r| == |movies|
    ensures forall i :: 0 <= i < |movies| ==> r[i] == movies[i].id
  {
    seq(|movies|, i requires 0 <= i < |movies| => movies[i].id)
  }

  /** No two items share an id. */
  predicate UniqueIds(movies: seq<Movie>)
  {
    forall i, j :: 0 <= i < j < |movies| ==> movies[i].id != movies[j].id
  }
}

=== FILE: movie_card.dfy ===
/** One card of the list (src/components/MovieCard.jsx): the status badge, the
    poster fallback and the buttons that move an item between statuses. */
module MovieCard {
  import opened Wrappers
  import opened Movies
  import opened MovieStore
  import opened Text

  /** The card's buttons. */
  datatype CardAction = MarkSeen | MarkWatching | Delete

  /** The buttons a card shows for an item with status `s`. */
  function Actions(s: Status): (r: set<CardAction>)
    ensures MarkSeen in r <==> s != Seen
    ensures MarkWatching in r <==> s != Watching
    ensures Delete in r
  {
    (if s != Seen then {MarkSeen} else {})
    + (if s != Watching then {MarkWatching} else {})
    + {Delete}
  }

  /** The status a button moves the item to; delete moves it nowhere. */
  function Target(a: CardAction): (r: Option<Status>)
    ensures r.Some? <==> a != Delete
    ensures r != Some(NotSeen)
  {
    match a
    case MarkSeen => Some(Seen)
    case MarkWatching => Some(Watching)
    case Delete => None
  }

  /** Pressing a button on the card of `movie`: the store call it makes. */
  function Perform(movies: seq<Movie>, movie: Movie, a: CardAction): (r: seq<Movie>)
    ensures a == Delete ==> r == DeleteMovie(movies, movie.id)
    ensures a != Delete ==> r == UpdateMovieStatus(movies, movie.id, Target(a).value)
  {
    match a
    case MarkSeen => UpdateMovieStatus(movies, movie.id, Seen)
    case MarkWatching => UpdateMovieStatus(movies, movie.id, Watching)
    case Delete => DeleteMovie(movies, movie.id)
  }

  /** The statuses the card's buttons lead to from status `s`. */
  function NextStatuses(s: Status): (r: set<Status>)
    ensures forall t :: t in r <==> exists a :: a in Actions(s) && Target(a) == Some(t)
  {
    set a | a in Actions(s) && Target(a).Some? :: Target(a).value
  }

  /** The transition menu: no button leads back to not-seen; from not-seen the
      card reaches watching and seen, from watching only seen, and from seen
      only watching. */
  lemma NoWayBackToNotSeen()
    ensures forall s :: NotSeen !in NextStatuses(s)
    ensures NextStatuses(NotSeen) == {Watching, Seen}
    ensures NextStatuses(Watching) == {Seen}
    ensures NextStatuses(Seen) == {Watching}
  {
    assert Target(MarkSeen) == Some(Seen) && Target(MarkWatching) == Some(Watching);
    assert MarkSeen in Actions(NotSeen) && MarkWatching in Actions(NotSeen);
    assert MarkSeen in Actions(Watching);
    assert MarkWatching in Actions(Seen);
  }

  /** Every item a card button leaves on the not-seen tab was already on it:
      the buttons never move an item back to not-seen. */
  lemma ButtonsNeverRestoreNotSeen(movies: seq<Movie>, movie: Movie, a: CardAction, i: nat)
    requires a != Delete
    requires i < |movies|
    ensures Perform(movies, movie, a)[i].status == NotSeen ==> movies[i].status == NotSeen
  {
  }

  /** Marking an item seen from its card sets no rating: an unrated item
      becomes a seen item without a rating. */
  lemma MarkSeenLeavesRatingAbsent(movies: seq<Movie>, i: nat)
    requires i < |movies|
    requires movies[i].rating.None?
    ensures Perform(movies, movies[i], MarkSeen)[i].status == Seen
    ensures Perform(movies, movies[i], MarkSeen)[i].rating.None?
  {
  }

  /** `movie.status.replace('-', ' ').toUpperCase()`. */
  function StatusLabel(s: Status): (r: string)
    ensures |r| == |StatusText(s)|
  {
    Upper(ReplaceFirst(StatusText(s), '-', ' '))
  }

  /** The badge of a not-seen item. */
  lemma NotSeenLabel()
    ensures StatusLabel(NotSeen) == "NOT SEEN"
  {
    var r := ReplaceFirst("not-seen", '-', ' ');
    assert "not-seen"[..3] == "not";
    assert forall i :: 0 <= i < 3 ==> "not-seen"[..i] == "not"[..i];
    assert r == "not seen";
    assert Upper("not seen") == "NOT SEEN";
  }

  /** The badge of an item being watched. */
  lemma WatchingLabel()
    ensures StatusLabel(Watching) == "WATCHING"
  {
    assert '-' !in "watching";
    ReplaceFirstAbsent("watching", '-', ' ');
    assert Upper("watching") == "WATCHING";
  }

  /** The badge of a watched item. */
  lemma SeenLabel()
    ensures StatusLabel(Seen) == "SEEN"
  {
    assert '-' !in "seen";
    ReplaceFirstAbsent("seen", '-', ' ');
    assert Upper("seen") == "SEEN";
  }

  /** The address of the placeholder image a card shows for an item without a
      poster; the encoded title follows it. */
  const PlaceholderBase := "https://placehold.co/400x600/2a2a2a/FFF?text="

  /** `movie.poster || placeholder(encodeURIComponent(movie.title))`: the stored
      poster when it is a non-empty text, else the placeholder built from the
      title. `encode` stands for `encodeURIComponent`. */
  function PosterSrc(movie: Movie, encode: string -> string): (r: string)
    ensures TruthyText(movie.poster) ==> r == movie.poster.value
    ensures !TruthyText(movie.poster) ==> r == PlaceholderBase + encode(movie.title)
    ensures r != ""
  {
    if TruthyText(movie.poster) then movie.poster.value
    else PlaceholderBase + encode(movie.title)
  }
}

=== FILE: movie_form.dfy ===
/** The add form (src/components/MovieForm.jsx): its state, the genre toggle,
    the blank-title guard and poster default of submit, and the mock search that
    fills the form. `encode` stands for `encodeURIComponent`; the fresh id and the
    creation time are the store's parameters. */
module MovieForm {
  import opened Wrappers
  import opened Movies
  import opened MovieStore
  import opened Text
  import opened Toggles

  /** The form state `{ title, type, genres, poster }`. */
  datatype FormData = FormData(title: string, kind: string, genres: seq<string>, poster: string)

  /** The empty form the page opens with and returns to after a submit. */
  const InitialForm := FormData("", "Movie", [], "")

  /** The placeholder address a submit uses for an item without a poster. */
  const SubmitPlaceholder := "https://placehold.co/400x600/1f2937/9ca3af?text="

  /** The placeholder address the mock search fills in. */
  const SearchPlaceholder := "https://placehold.co/400x600/4c1d95/c4b5fd?text="

  /** `handleGenreToggle(genre)`: only the genre list changes, and it is toggled. */
  function HandleGenreToggle(f: FormData, genre: string): (r: FormData)
    ensures r.genres == Toggle(f.genres, genre)
    ensures r.(genres := f.genres) == f
  {
    f.(genres := Toggle(f.genres, genre))
  }

  /** The object handed to `addMovie`: the form's properties with the poster
      defaulted. It carries no id, status or addedAt; the store sets those. */
  function Draft(f: FormData, encode: string -> string): (d: Movie)
    ensures d.title == f.title && d.kind == Some(f.kind) && d.genres == Some(f.genres)
    ensures f.poster != "" ==> d.poster == Some(f.poster)
    ensures f.poster == "" ==> d.poster == Some(SubmitPlaceholder + encode(f.title))
    ensures d.rating.None? && d.review.None? && d.watchedAt.None? && d.tmdbRating.None?
  {
    Movie("", f.title, Some(f.kind), NotSeen, Some(f.genres), None, None,
          Some(if f.poster != "" then f.poster else SubmitPlaceholder + encode(f.title)),
          None, None, None, None, None)
  }

  /** The store and the form after a submit. */
  datatype Submitted = Submitted(movies: seq<Movie>, form: FormData)

  /** `handleSubmit`: a blank or white-space title changes nothing. Otherwise one
      item is appended with the title as typed (not trimmed), the entered poster
      or the placeholder, status not-seen and no rating, and the form resets. */
  function HandleSubmit(movies: seq<Movie>, f: FormData, encode: string -> string,
                        freshId: string, now: string): (r: Submitted)
    ensures Blank(f.title) ==> r == Submitted(movies, f)
    ensures !Blank(f.title) ==>
      && |r.movies| == |movies| + 1
      && r.movies[..|movies|] == movies
      && r.movies[|movies|].id == freshId
      && r.movies[|movies|].title == f.title
      && r.movies[|movies|].kind == Some(f.kind)
      && r.movies[|movies|].genres == Some(f.genres)
      && r.movies[|movies|].poster == Some(if f.poster != "" then f.poster else SubmitPlaceholder + encode(f.title))
      && r.movies[|movies|].status == NotSeen
      && r.movies[|movies|].rating.None?
      && r.form == InitialForm
  {
    TrimEmptyIffBlank(f.title);
    if Trim(f.title) == "" then Submitted(movies, f)
    else Submitted(AddMovie(movies, Draft(f, encode), freshId, now), InitialForm)
  }

  /** `handleSearch`: a blank query changes nothing; otherwise the whole form
      is replaced by the query as title, type movie, no genres and the search
      placeholder poster. */
  function HandleSearch(f: FormData, query: string, encode: string -> string): (r: FormData)
    ensures Blank(query) ==> r == f
    ensures !Blank(query) ==> r == FormData(query, "Movie", [], SearchPlaceholder + encode(query))
  {
    TrimEmptyIffBlank(query);
    if Trim(query) == "" then f
    else FormData(query, "Movie", [], SearchPlaceholder + encode(query))
  }

  /** A search followed by a submit adds the queried title with the search
      placeholder as its poster (a non-empty poster is never replaced). */
  lemma SearchThenSubmit(movies: seq<Movie>, f: FormData, query: string, encode: string -> string,
                         freshId: string, now: string)
    requires !Blank(query)
    ensures var r := HandleSubmit(movies, HandleSearch(f, query, encode), encode, freshId, now);
            && |r.movies| == |movies| + 1
            && r.movies[|movies|].title == query
            && r.movies[|movies|].poster == Some(SearchPlaceholder + encode(query))
            && r.form == InitialForm
  {
    var g := HandleSearch(f, query, encode);
    assert g.title == query;
    assert SearchPlaceholder + encode(query) != "";
  }

  /** A submit keeps the store's ids distinct when the fresh id is new. */
  lemma SubmitKeepsIdsUnique(movies: seq<Movie>, f: FormData, encode: string -> string,
                             freshId: string, now: string)
    requires UniqueIds(movies)
    requires freshId !in Ids(movies)
    ensures UniqueIds(HandleSubmit(movies, f, encode, freshId, now).movies)
  {
    StoreKeepsIdsUnique(movies, Draft(f, encode), freshId, now, freshId, NotSeen, 0, "", "", EmptyPatch);
  }
}

=== FILE: movie_list.dfy ===
/** The list page (src/components/MovieList.jsx): the status tabs and their
    counts, the "Recommend Me" button, and the card click on the watched tab. */
module MovieList {
  import opened Wrappers
  import opened Seqs
  import opened Movies
  import opened MovieStore
  import opened Recommendations

  /** The tab the page opens on. */
  const InitialTab: Status := NotSeen

  /** `filteredMovies`: the items whose status is the active tab, in store order. */
  function Visible(movies: seq<Movie>, tab: Status): (r: seq<Movie>)
    ensures forall i :: 0 <= i < |r| ==> r[i].status == tab && r[i] in movies
    ensures forall i :: 0 <= i < |movies| && movies[i].status == tab ==> movies[i] in r
  {
    InStatus(movies, tab)
  }

  /** The visible list keeps store order: the tab of a concatenation is the
      concatenation of the tabs. */
  lemma VisibleKeepsOrder(a: seq<Movie>, b: seq<Movie>, tab: Status)
    ensures Visible(a + b, tab) == Visible(a, tab) + Visible(b, tab)
  {
    FilterConcat(WithStatus(tab), a, b);
  }

  /** The badge counts of the three tabs. */
  datatype TabCounts = TabCounts(notSeen: nat, watching: nat, seen: nat)

  /** Every item sits in exactly one tab. */
  lemma {:induction false} TabsPartition(movies: seq<Movie>)
    ensures |Visible(movies, NotSeen)| + |Visible(movies, Watching)| + |Visible(movies, Seen)| == |movies|
  {
    if |movies| > 0 {
      TabsPartition(movies[1..]);
    }
  }

  /** `tabs[...].count`: each badge is the size of its tab, and the badges add
      up to the whole collection. */
  function Counts(movies: seq<Movie>): (r: TabCounts)
    ensures r.notSeen == |Visible(movies, NotSeen)|
    ensures r.watching == |Visible(movies, Watching)|
    ensures r.seen == |Visible(movies, Seen)|
    ensures r.notSeen + r.watching + r.seen == |movies|
  {
    TabsPartition(movies);
    TabCounts(
      |Filter(WithStatus(NotSeen), movies)|,
      |Filter(WithStatus(Watching), movies)|,
      |Filter(WithStatus(Seen), movies)|)
  }

  /** The "Recommend Me" button is shown on the not-seen tab when it has items. */
  predicate RecommendOffered(movies: seq<Movie>, tab: Status): (r: bool)
    ensures r <==> tab == NotSeen && Counts(movies).notSeen > 0
    ensures r ==> |Visible(movies, tab)| > 0
  {
    tab == NotSeen && |Filter(WithStatus(NotSeen), movies)| > 0
  }

  /** `handleRecommend`: no recommendation (an alert) for an empty "Want to
      Watch" list, otherwise the item at a drawn index of it; the same choice as
      the random strategy. */
  function HandleRecommend(movies: seq<Movie>, rnd: real): (r: Option<Movie>)
    requires IsDraw(rnd)
    ensures r.None? <==> |NotSeenPool(movies)| == 0
    ensures r.Some? ==> exists i :: 0 <= i < |NotSeenPool(movies)| && r.value == NotSeenPool(movies)[i]
    ensures r == RandomRecommendation(movies, rnd)
  {
    var notSeen := Filter(WithStatus(NotSeen), movies);
    if |notSeen| == 0 then None
    else Some(notSeen[PickIndex(|notSeen|, rnd)])
  }

  /** The page opens on the "Want to Watch" tab: it lists the not-seen items,
      and the button is there exactly when that list is not empty. */
  lemma InitialTabShowsWantToWatch(movies: seq<Movie>)
    ensures Visible(movies, InitialTab) == NotSeenPool(movies)
    ensures RecommendOffered(movies, InitialTab) <==> |NotSeenPool(movies)| > 0
  {
  }

  /** Pressing the button, whenever it is shown, yields a recommendation. */
  lemma OfferedButtonRecommends(movies: seq<Movie>, tab: Status, rnd: real)
    requires IsDraw(rnd)
    requires RecommendOffered(movies, tab)
    ensures HandleRecommend(movies, rnd).Some?
    ensures HandleRecommend(movies, rnd).value.status == NotSeen
  {
  }

  /** Clicking a card opens the rating dialog for it on the watched tab only. */
  function CardClick(tab: Status, movie: Movie): (ratingMovie: Option<Movie>)
    ensures ratingMovie.Some? <==> tab == Seen
    ensures ratingMovie.Some? ==> ratingMovie.value == movie
  {
    if tab == Seen then Some(movie) else None
  }

  /** Rating an item moves it from whatever tab it was on to the watched tab. */
  lemma RatingMovesToWatchedTab(movies: seq<Movie>, i: nat, rating: int, review: string, watchedAt: string)
    requires i < |movies|
    ensures var after := RateMovie(movies, movies[i].id, rating, review, watchedAt);
            && after[i] in Visible(after, Seen)
            && (forall j :: 0 <= j < |Visible(after, NotSeen)| ==> Visible(after, NotSeen)[j].id != movies[i].id)
  {
    var after := RateMovie(movies, movies[i].id, rating, review, watchedAt);
    forall j | 0 <= j < |Visible(after, NotSeen)| ensures Visible(after, NotSeen)[j].id != movies[i].id {
      var x := Visible(after, NotSeen)[j];
      var k :| 0 <= k < |after| && after[k] == x;
    }
  }
}

=== FILE: ranking.dfy ===
/** The `{ movie, score }` records the two scoring recommenders build, and the
    stable descending sort they apply to them
    (`moviesWithScores.sort((a, b) => b.score - a.score)`). */
module Ranking {
  import opened Seqs
  import opened Movies

  /** A scored candidate. `pos` is the candidate's index in the not-seen pool;
      the source does not store it, the model keeps it to state stability. */
  datatype Scored = Scored(movie: Movie, score: real, pos: nat)

  /** `{ movie, score: f(movie) }` for every candidate of the pool, in pool order. */
  function ScoreAll(pool: seq<Movie>, f: Movie -> real): (r: seq<Scored>)
    ensures |r| == |pool|
    ensures forall i :: 0 <= i < |pool| ==> r[i] == Scored(pool[i], f(pool[i]), i)
  {
    seq(|pool|, i requires 0 <= i < |pool| => Scored(pool[i], f(pool[i]), i))
  }

  /** `a` sorts strictly before `b` in a stable sort by descending score:
      a higher score, or the same score and an earlier place in the pool. */
  predicate Outranks(a: Scored, b: Scored)
  {
    a.score > b.score || (a.score == b.score && a.pos < b.pos)
  }

  /** The filter predicate "outranks `c`". */
  function OutranksOf(c: Scored): Scored -> bool
  {
    (d: Scored) => Outranks(d, c)
  }

  /** Every element outranks every later one. */
  predicate Ranked(s: seq<Scored>)
  {
    forall i, j :: 0 <= i < j < |s| ==> Outranks(s[i], s[j])
  }

  /** Positions strictly increase along the sequence (the pool's own order). */
  predicate InPoolOrder(s: seq<Scored>)
  {
    forall i, j :: 0 <= i < j < |s| ==> s[i].pos < s[j].pos
  }

  /** Places `x` in front of the first element whose score it reaches. */
  function Insert(x: Scored, t: seq<Scored>): (r: seq<Scored>)
    ensures |r| == |t| + 1
    ensures multiset(r) == multiset(t) + multiset{x}
  {
    if |t| == 0 || x.score >= t[0].score then [x] + t
    else
      assert t == [t[0]] + t[1..];
      [t[0]] + Insert(x, t[1..])
  }

  /** The stable sort by descending score; it permutes its input. */
  function SortByScore(s: seq<Scored>): (r: seq<Scored>)
    ensures |r| == |s|
    ensures multiset(r) == multiset(s)
  {
    if |s| == 0 then []
    else
      assert s == [s[0]] + s[1..];
      Insert(s[0], SortByScore(s[1..]))
  }

  lemma {:induction false} InsertKeepsRanked(x: Scored, t: seq<Scored>)
    requires Ranked(t)
    requires forall i :: 0 <= i < |t| ==> x.pos < t[i].pos
    ensures Ranked(Insert(x, t))
  {
    if |t| == 0 || x.score >= t[0].score {
      var r := [x] + t;
      forall i, j | 0 <= i < j < |r| ensures Outranks(r[i], r[j]) {
        if i == 0 && j > 1 {
          assert Outranks(t[0], t[j - 1]);
        }
      }
    } else {
      InsertKeepsRanked(x, t[1..]);
      var rest := Insert(x, t[1..]);
      forall k | 0 <= k < |rest| ensures Outranks(t[0], rest[k]) {
        assert rest[k] in multiset(t[1..]) + multiset{x};
        if rest[k] != x {
          assert rest[k] in t[1..];
          var j :| 0 <= j < |t[1..]| && t[1..][j] == rest[k];
          assert Outranks(t[0], t[j + 1]);
        }
      }
      var r := [t[0]] + rest;
      forall i, j | 0 <= i < j < |r| ensures Outranks(r[i], r[j]) {
        if i == 0 {
          assert r[j] == rest[j - 1];
        } else {
          assert r[i] == rest[i - 1] && r[j] == rest[j - 1];
        }
      }
    }
  }

  /** Sorting candidates given in pool order ranks them: the sort is stable. */
  lemma {:induction false} SortRanks(s: seq<Scored>)
    requires InPoolOrder(s)
    ensures Ranked(SortByScore(s))
  {
    if |s| > 0 {
      var tail := s[1..];
      assert InPoolOrder(tail);
      SortRanks(tail);
      var sorted := SortByScore(tail);
      forall i | 0 <= i < |sorted| ensures s[0].pos < sorted[i].pos {
        assert sorted[i] in multiset(tail);
        var j :| 0 <= j < |tail| && tail[j] == sorted[i];
        assert tail[j] == s[j + 1];
      }
      InsertKeepsRanked(s[0], sorted);
    }
  }

  /** Every element of the sorted sequence is one of the inputs. */
  lemma SortedFromInput(s: seq<Scored>, k: nat)
    requires k < |s|
    ensures SortByScore(s)[k] in s
  {
    assert SortByScore(s)[k] in multiset(SortByScore(s));
  }

  /** The element at index `k` of the sorted candidates is outranked by exactly
      `k` of them: the first `min(3, n)` sorted elements are the candidates
      that fewer than three others outrank. */
  lemma OutrankedCountIsIndex(s: seq<Scored>, k: nat)
    requires InPoolOrder(s)
    requires k < |s|
    ensures |Filter(OutranksOf(SortByScore(s)[k]), s)| == k
  {
    var r := SortByScore(s);
    SortRanks(s);
    var p := OutranksOf(r[k]);
    FilterCountPermutation(p, s, r);
    var before, after := r[..k], r[k + 1..];
    assert r == before + [r[k]] + after;
    FilterConcat(p, before + [r[k]], after);
    FilterConcat(p, before, [r[k]]);
    RankedPrefixOutranks(r, k);
    FilterKeepsAll(p, before);
    FilterDropsAll(p, [r[k]]);
    RankedSuffixDoesNotOutrank(r, k, after);
    FilterDropsAll(p, after);
  }

  lemma RankedPrefixOutranks(r: seq<Scored>, k: nat)
    requires Ranked(r) && k < |r|
    ensures forall i :: 0 <= i < k ==> OutranksOf(r[k])(r[..k][i])
  {
    forall i | 0 <= i < k ensures OutranksOf(r[k])(r[..k][i]) {
      assert r[..k][i] == r[i];
      assert Outranks(r[i], r[k]);
    }
  }

  lemma RankedSuffixDoesNotOutrank(r: seq<Scored>, k: nat, after: seq<Scored>)
    requires Ranked(r) && k < |r| && after == r[k + 1..]
    ensures forall i :: 0 <= i < |after| ==> !OutranksOf(r[k])(after[i])
  {
    forall i | 0 <= i < |after| ensures !OutranksOf(r[k])(after[i]) {
      assert after[i] == r[k + 1 + i];
      assert Outranks(r[k], r[k + 1 + i]);
    }
  }

  /** The `i`-th candidate has the highest score, and every earlier one scores less. */
  predicate IsFirstBest(cands: seq<Scored>, i: int)
  {
    && 0 <= i < |cands|
    && (forall j :: 0 <= j < |cands| ==> cands[j].score <= cands[i].score)
    && (forall j :: 0 <= j < i ==> cands[j].score < cands[i].score)
  }

  /** The head of the sorted candidates outranks every other candidate. */
  lemma SortedHeadOutranks(s: seq<Scored>, i: nat, j: nat)
    requires InPoolOrder(s)
    requires i < |s| && j < |s| && i != j
    requires SortByScore(s)[0] == s[i]
    ensures Outranks(s[i], s[j])
  {
    var r := SortByScore(s);
    SortRanks(s);
    assert s[j] in multiset(r);
    var k :| 0 <= k < |r| && r[k] == s[j];
    assert s[j].pos != s[i].pos;
    assert k != 0;
    assert Outranks(r[0], r[k]);
  }

  /** The head of the sorted candidates is the first candidate with the
      highest score. */
  lemma SortedHeadIsFirstBest(s: seq<Scored>)
    requires InPoolOrder(s)
    requires |s| > 0
    ensures exists i :: IsFirstBest(s, i) && SortByScore(s)[0] == s[i]
  {
    SortedFromInput(s, 0);
    var i :| 0 <= i < |s| && SortByScore(s)[0] == s[i];
    forall j | 0 <= j < |s| ensures s[j].score <= s[i].score {
      if j != i {
        SortedHeadOutranks(s, i, j);
      }
    }
    forall j | 0 <= j < i ensures s[j].score < s[i].score {
      SortedHeadOutranks(s, i, j);
      assert s[j].pos < s[i].pos;
    }
    assert IsFirstBest(s, i);
  }
}

=== FILE: rating.dfy ===
/** The ten-star widget (src/components/Rating.jsx): which stars are filled,
    how the hover value follows the mouse, and what a click reports. */
module RatingWidget {
  import opened Wrappers
  import opened Seqs
  import opened Movies

  /** The number of stars. */
  const StarCount := 10

  /** The star values, `i + 1` for the `i`-th of the ten buttons. */
  function StarValues(): (r: seq<int>)
    ensures |r| == StarCount
    ensures forall i :: 0 <= i < |r| ==> r[i] == i + 1
  {
    seq(StarCount, i => i + 1)
  }

  /** A value some star carries. */
  predicate IsStar(v: int)
  {
    1 <= v <= StarCount
  }

  /** The values the star buttons carry are exactly 1 to 10. */
  lemma StarValuesAreStars(v: int)
    ensures v in StarValues() <==> IsStar(v)
  {
    if IsStar(v) {
      assert StarValues()[v - 1] == v;
    }
  }

  /** `ratingValue <= (hover || value)`: a non-zero hover decides, otherwise the
      value does; a missing value fills nothing. */
  predicate Filled(star: int, hover: int, value: Option<int>): (r: bool)
    ensures hover != 0 ==> (r <==> star <= hover)
    ensures hover == 0 && !TruthyInt(value) && IsStar(star) ==> !r
  {
    if hover != 0 then star <= hover else value.Some? && star <= value.value
  }

  /** The fill is a prefix of the stars: a filled star fills every lower star. */
  lemma FillIsPrefix(star: int, lower: int, hover: int, value: Option<int>)
    requires lower <= star
    requires Filled(star, hover, value)
    ensures Filled(lower, hover, value)
  {
  }

  /** `hover || value` for a value that is missing, zero or a star: the number
      of stars the widget lights. */
  function Lit(hover: int, value: Option<int>): (n: nat)
    requires hover == 0 || IsStar(hover)
    requires value.None? || value.value == 0 || IsStar(value.value)
    ensures n <= StarCount
    ensures hover != 0 ==> n == hover
    ensures hover == 0 ==> n == if TruthyInt(value) then value.value else 0
  {
    if hover != 0 then hover else if value.Some? then value.value else 0
  }

  /** The lit stars are exactly the first `hover || value` of the ten. */
  lemma FilledStars(hover: int, value: Option<int>)
    requires hover == 0 || IsStar(hover)
    requires value.None? || value.value == 0 || IsStar(value.value)
    ensures Filter((s: int) => Filled(s, hover, value), StarValues()) == StarValues()[..Lit(hover, value)]
    ensures |Filter((s: int) => Filled(s, hover, value), StarValues())| == Lit(hover, value)
  {
    FilterPrefix((s: int) => Filled(s, hover, value), StarValues(), Lit(hover, value));
  }

  /** The mouse and click events a star button receives, with the star's value. */
  datatype Event = Enter(star: int) | Leave | Click(star: int)

  predicate ValidEvent(e: Event)
  {
    e.Leave? || IsStar(e.star)
  }

  /** The hover value after an event: entering a star hovers it, leaving
      resets to zero; a read-only widget ignores both. */
  function NextHover(readOnly: bool, hover: int, e: Event): (h: int)
    ensures readOnly || e.Click? ==> h == hover
    ensures !readOnly && e.Leave? ==> h == 0
    ensures !readOnly && e.Enter? ==> h == e.star
  {
    match e
    case Enter(v) => if !readOnly then v else hover
    case Leave => if !readOnly then 0 else hover
    case Click(_) => hover
  }

  /** The value a click hands to `onChange`: the clicked star's value, when the
      widget is not read-only (its buttons are disabled then) and an `onChange`
      was given; nothing otherwise. */
  function Clicked(readOnly: bool, hasOnChange: bool, e: Event): (r: Option<int>)
    ensures r.Some? <==> e.Click? && !readOnly && hasOnChange
    ensures r.Some? ==> r.value == e.star
  {
    if e.Click? && !readOnly && hasOnChange then Some(e.star) else None
  }

  /** The hover value after a run of events. */
  function FinalHover(readOnly: bool, hover: int, events: seq<Event>): int
    decreases |events|
  {
    if |events| == 0 then hover
    else FinalHover(readOnly, NextHover(readOnly, hover, events[0]), events[1..])
  }

  /** A read-only widget never hovers, so its fill depends on the value alone. */
  lemma {:induction false} ReadOnlyNeverHovers(events: seq<Event>, star: int, value: Option<int>)
    ensures FinalHover(true, 0, events) == 0
    ensures Filled(star, FinalHover(true, 0, events), value) <==> value.Some? && star <= value.value
    decreases |events|
  {
    if |events| > 0 {
      ReadOnlyNeverHovers(events[1..], star, value);
    }
  }

  /** Starting from no hover, the hover value is always zero or a star. */
  lemma {:induction false} HoverIsZeroOrStar(readOnly: bool, hover: int, events: seq<Event>)
    requires hover == 0 || IsStar(hover)
    requires forall i :: 0 <= i < |events| ==> ValidEvent(events[i])
    ensures FinalHover(readOnly, hover, events) == 0 || IsStar(FinalHover(readOnly, hover, events))
    decreases |events|
  {
    if |events| > 0 {
      HoverIsZeroOrStar(readOnly, NextHover(readOnly, hover, events[0]), events[1..]);
    }
  }
}

=== FILE: rating_modal.dfy ===
/** The rate-and-review dialog (src/components/RatingModal.jsx): its starting
    values, the star widget feeding its rating, the disabled save button and the
    `rateMovie` call of its submit. The watch date's conversion to a day and
    today's date are parameters. */
module RatingModal {
  import opened Wrappers
  import opened Movies
  import opened MovieStore
  import opened RatingWidget

  /** The dialog state `rating`, `review`, `watchedAt`. */
  datatype Dialog = Dialog(rating: int, review: string, watchedAt: string)

  /** `movie.rating || 0`. */
  function InitialRating(m: Movie): (r: int)
    ensures TruthyInt(m.rating) ==> r == m.rating.value
    ensures !TruthyInt(m.rating) ==> r == 0
  {
    if TruthyInt(m.rating) then m.rating.value else 0
  }

  /** `movie.review || ''`. */
  function InitialReview(m: Movie): (r: string)
    ensures TruthyText(m.review) ==> r == m.review.value
    ensures !TruthyText(m.review) ==> r == ""
  {
    if TruthyText(m.review) then m.review.value else ""
  }

  /** The dialog as it opens: the stored watch date as a day when there is
      one, today otherwise. */
  function Open(m: Movie, toDay: string -> string, today: string): (d: Dialog)
    ensures d.rating == InitialRating(m) && d.review == InitialReview(m)
    ensures d.watchedAt == if TruthyText(m.watchedAt) then toDay(m.watchedAt.value) else today
  {
    Dialog(InitialRating(m), InitialReview(m),
           if TruthyText(m.watchedAt) then toDay(m.watchedAt.value) else today)
  }

  /** The rating after the dialog's editable star widget (which has an
      `onChange`, `setRating`) received a run of events. */
  function RatingAfter(rating: int, events: seq<Event>): int
    decreases |events|
  {
    if |events| == 0 then rating
    else RatingAfter(Clicked(false, true, events[0]).GetOr(rating), events[1..])
  }

  /** The rating stays unset or a star value: the widget only reports stars. */
  lemma {:induction false} RatingStaysStar(rating: int, events: seq<Event>)
    requires rating == 0 || IsStar(rating)
    requires forall i :: 0 <= i < |events| ==> ValidEvent(events[i])
    ensures RatingAfter(rating, events) == 0 || IsStar(RatingAfter(rating, events))
    decreases |events|
  {
    if |events| > 0 {
      RatingStaysStar(Clicked(false, true, events[0]).GetOr(rating), events[1..]);
    }
  }

  /** Save is enabled (`disabled={!rating}`) only for a non-zero rating. */
  predicate CanSave(d: Dialog): (r: bool)
    ensures r <==> TruthyInt(Some(d.rating))
  {
    d.rating != 0
  }

  /** `handleSubmit`: with save enabled, `rateMovie(movie.id, rating, review,
      watchedAt)`, after which the dialog's item is on the watched tab with
      the dialog's values; with save disabled no submit happens. */
  function Submit(movies: seq<Movie>, movie: Movie, d: Dialog): (r: seq<Movie>)
    ensures !CanSave(d) ==> r == movies
    ensures |r| == |movies|
    ensures CanSave(d) ==> forall i :: 0 <= i < |movies| && movies[i].id == movie.id ==>
      && r[i].status == Seen && r[i].rating == Some(d.rating)
      && r[i].review == Some(d.review) && r[i].watchedAt == Some(d.watchedAt)
    ensures forall i :: 0 <= i < |movies| && movies[i].id != movie.id ==> r[i] == movies[i]
  {
    if CanSave(d) then RateMovie(movies, movie.id, d.rating, d.review, d.watchedAt) else movies
  }

  /** The rating a submit stores lies in 1..10 whenever the item's stored rating
      was missing, zero or a star, since new values come only from the widget;
      the review goes through unchanged, possibly empty. */
  lemma SubmittedRatingIsStar(movies: seq<Movie>, i: nat, events: seq<Event>,
                              toDay: string -> string, today: string)
    requires i < |movies|
    requires !TruthyInt(movies[i].rating) || IsStar(movies[i].rating.value)
    requires forall k :: 0 <= k < |events| ==> ValidEvent(events[k])
    ensures var d0 := Open(movies[i], toDay, today);
            var d := d0.(rating := RatingAfter(d0.rating, events));
            CanSave(d) ==>
              && Submit(movies, movies[i], d)[i].status == Seen
              && IsStar(Submit(movies, movies[i], d)[i].rating.value)
              && Submit(movies, movies[i], d)[i].review == Some(InitialReview(movies[i]))
  {
    var d0 := Open(movies[i], toDay, today);
    RatingStaysStar(d0.rating, events);
  }
}

=== FILE: recommendations.dfy ===
/** The recommendation engine (src/lib/recommendations.js): three strategies
    that choose one item of the "Want to Watch" list, and the dispatcher.
    `Math.random()` is a parameter `rnd` with `0 <= rnd < 1`; every strategy
    draws at most once. */
module Recommendations {
  import opened Wrappers
  import opened Seqs
  import opened Movies
  import opened Ranking

  /** A value `Math.random()` can return. */
  predicate IsDraw(rnd: real)
  {
    0.0 <= rnd < 1.0
  }

  /** `Math.floor(rnd * n)`: an index into a list of `n` elements. */
  function PickIndex(n: nat, rnd: real): (i: nat)
    requires 0 < n && IsDraw(rnd)
    ensures i < n
  {
    var x := rnd * n as real;
    assert x < n as real by {
      assert rnd * n as real < 1.0 * n as real;
    }
    x.Floor
  }

  /** Every index of a non-empty list is drawn by some value of `Math.random()`. */
  lemma PickIndexReachesEvery(n: nat, i: nat)
    requires i < n
    ensures IsDraw(i as real / n as real) && PickIndex(n, i as real / n as real) == i
  {
    var rnd := i as real / n as real;
    assert rnd * n as real == i as real;
  }

  // ---------------------------------------------------------------- random

  /** `getRandomRecommendation`: null for an empty "Want to Watch" list,
      otherwise one of its items. */
  function RandomRecommendation(movies: seq<Movie>, rnd: real): (r: Option<Movie>)
    requires IsDraw(rnd)
    ensures r.None? <==> |NotSeenPool(movies)| == 0
    ensures r.Some? ==> r.value in NotSeenPool(movies) && r.value.status == NotSeen
  {
    var pool := NotSeenPool(movies);
    if |pool| == 0 then None else Some(pool[PickIndex(|pool|, rnd)])
  }

  /** Every "Want to Watch" item is returned by the random strategy for some draw. */
  lemma RandomReachesEveryCandidate(movies: seq<Movie>, i: nat)
    requires i < |NotSeenPool(movies)|
    ensures exists rnd :: IsDraw(rnd) && RandomRecommendation(movies, rnd) == Some(NotSeenPool(movies)[i])
  {
    var n := |NotSeenPool(movies)|;
    PickIndexReachesEvery(n, i);
    assert RandomRecommendation(movies, i as real / n as real) == Some(NotSeenPool(movies)[i]);
  }

  // ---------------------------------------------------------------- genre

  /** `m.rating && m.rating >= 7`, applied to every item whatever its status. */
  predicate HighlyRated(m: Movie)
  {
    TruthyInt(m.rating) && m.rating.value >= 7
  }

  /** The items whose ratings feed the genre preferences, in store order. */
  function RatedPool(movies: seq<Movie>): seq<Movie>
  {
    Filter(HighlyRated, movies)
  }

  /** `genreScores[genre] || 0`. */
  function Lookup(scores: map<string, int>, g: string): int
  {
    if g in scores then scores[g] else 0
  }

  /** The `forEach` over one item's genres: each entry adds the rating. */
  function AddToGenres(scores: map<string, int>, gs: seq<string>, rating: int): map<string, int>
    decreases |gs|
  {
    if |gs| == 0 then scores
    else AddToGenres(scores[gs[0] := Lookup(scores, gs[0]) + rating], gs[1..], rating)
  }

  /** The `genreScores` object as the `forEach` over the rated items builds it. */
  function TallyGenres(scores: map<string, int>, rated: seq<Movie>): map<string, int>
    decreases |rated|
  {
    if |rated| == 0 then scores
    else TallyGenres(AddToGenres(scores, GenresOf(rated[0]), rated[0].rating.GetOr(0)), rated[1..])
  }

  /** The genre preference table of a collection. */
  function GenreScores(movies: seq<Movie>): map<string, int>
  {
    TallyGenres(map[], RatedPool(movies))
  }

  /** What a genre is worth, by definition: the sum over the rated items of
      their rating times the number of times they list the genre. */
  function GenreWeight(rated: seq<Movie>, g: string): int
  {
    if |rated| == 0 then 0
    else rated[0].rating.GetOr(0) * multiset(GenresOf(rated[0]))[g] + GenreWeight(rated[1..], g)
  }

  /** `score += genreScores[genre] || 0` over a candidate's genre entries. */
  function Affinity(gs: seq<string>, scores: map<string, int>): int
  {
    if |gs| == 0 then 0 else Lookup(scores, gs[0]) + Affinity(gs[1..], scores)
  }

  /** What a candidate is worth, by definition: the weights of its genre entries, summed. */
  function WeightSum(gs: seq<string>, rated: seq<Movie>): int
  {
    if |gs| == 0 then 0 else GenreWeight(rated, gs[0]) + WeightSum(gs[1..], rated)
  }

  /** The scored "Want to Watch" list of the genre strategy. */
  function GenreCandidates(movies: seq<Movie>): seq<Scored>
  {
    var scores := GenreScores(movies);
    ScoreAll(NotSeenPool(movies), (m: Movie) => Affinity(GenresOf(m), scores) as real)
  }

  lemma AddOneEntry(scores: map<string, int>, x: string, rating: int, g: string)
    ensures Lookup(scores[x := Lookup(scores, x) + rating], g) == Lookup(scores, g) + (if g == x then rating else 0)
  {
  }

  lemma {:induction false} AddToGenresAdds(scores: map<string, int>, gs: seq<string>, rating: int, g: string)
    ensures Lookup(AddToGenres(scores, gs, rating), g) == Lookup(scores, g) + rating * multiset(gs)[g]
    decreases |gs|
  {
    if |gs| > 0 {
      var next := scores[gs[0] := Lookup(scores, gs[0]) + rating];
      AddOneEntry(scores, gs[0], rating, g);
      AddToGenresAdds(next, gs[1..], rating, g);
      assert gs == [gs[0]] + gs[1..];
      var before := multiset(gs[1..])[g];
      var step := if g == gs[0] then 1 else 0;
      assert multiset(gs)[g] == before + step by {
        assert multiset(gs) == multiset{gs[0]} + multiset(gs[1..]);
      }
      assert rating * (before + step) == rating * before + rating * step;
    }
  }

  lemma {:induction false} TallyAddsWeights(scores: map<string, int>, rated: seq<Movie>, g: string)
    ensures Lookup(TallyGenres(scores, rated), g) == Lookup(scores, g) + GenreWeight(rated, g)
    decreases |rated|
  {
    if |rated| > 0 {
      var next := AddToGenres(scores, GenresOf(rated[0]), rated[0].rating.GetOr(0));
      AddToGenresAdds(scores, GenresOf(rated[0]), rated[0].rating.GetOr(0), g);
      TallyAddsWeights(next, rated[1..], g);
    }
  }

  /** The table the source builds holds, for every genre, its weight by
      definition; a genre no rated item lists is worth 0. */
  lemma GenreScoresAreWeights(movies: seq<Movie>, g: string)
    ensures Lookup(GenreScores(movies), g) == GenreWeight(RatedPool(movies), g)
  {
    TallyAddsWeights(map[], RatedPool(movies), g);
  }

  lemma {:induction false} AffinityIsWeightSum(gs: seq<string>, movies: seq<Movie>)
    ensures Affinity(gs, GenreScores(movies)) == WeightSum(gs, RatedPool(movies))
  {
    if |gs| > 0 {
      GenreScoresAreWeights(movies, gs[0]);
      AffinityIsWeightSum(gs[1..], movies);
    }
  }

  /** A genre-strategy candidate's score is the sum of the weights of its genre
      entries, the weight of a genre being the ratings of the items rated 7 or
      more (of any status) that list it. */
  lemma GenreCandidateScore(movies: seq<Movie>, i: nat)
    requires i < |NotSeenPool(movies)|
    ensures GenreCandidates(movies)[i].movie == NotSeenPool(movies)[i]
    ensures GenreCandidates(movies)[i].score == WeightSum(GenresOf(NotSeenPool(movies)[i]), RatedPool(movies)) as real
  {
    AffinityIsWeightSum(GenresOf(NotSeenPool(movies)[i]), movies);
  }

  lemma {:induction false} WeightsAreNonNegative(rated: seq<Movie>, g: string)
    requires forall i :: 0 <= i < |rated| ==> HighlyRated(rated[i])
    ensures GenreWeight(rated, g) >= 0
  {
    if |rated| > 0 {
      assert HighlyRated(rated[0]);
      WeightsAreNonNegative(rated[1..], g);
    }
  }

  lemma {:induction false} AffinityIsNonNegative(gs: seq<string>, movies: seq<Movie>)
    ensures Affinity(gs, GenreScores(movies)) >= 0
  {
    if |gs| > 0 {
      GenreScoresAreWeights(movies, gs[0]);
      WeightsAreNonNegative(RatedPool(movies), gs[0]);
      AffinityIsNonNegative(gs[1..], movies);
    }
  }

  /** `getGenreBasedRecommendation`. */
  function GenreBasedRecommendation(movies: seq<Movie>, rnd: real): (r: Option<Movie>)
    requires IsDraw(rnd)
    ensures r.None? <==> |NotSeenPool(movies)| == 0
    ensures r.Some? ==> r.value in NotSeenPool(movies)
  {
    var pool := NotSeenPool(movies);
    if |pool| == 0 then None
    else if |RatedPool(movies)| == 0 then RandomRecommendation(movies, rnd)
    else
      var sorted := SortByScore(GenreCandidates(movies));
      if sorted[0].score == 0.0 then RandomRecommendation(movies, rnd)
      else
        var top := Take(sorted, 3);
        var k := PickIndex(|top|, rnd);
        SortedFromInput(GenreCandidates(movies), k);
        Some(top[k].movie)
  }

  /** The genre strategy is the random one when no item is rated 7 or more, and
      when no candidate shares a genre with the rated items. */
  lemma GenreFallsBackToRandom(movies: seq<Movie>, rnd: real)
    requires IsDraw(rnd)
    requires || |RatedPool(movies)| == 0
             || forall i :: 0 <= i < |GenreCandidates(movies)| ==> GenreCandidates(movies)[i].score == 0.0
    ensures GenreBasedRecommendation(movies, rnd) == RandomRecommendation(movies, rnd)
  {
    var cands := GenreCandidates(movies);
    if |NotSeenPool(movies)| > 0 && |RatedPool(movies)| > 0 {
      SortedFromInput(cands, 0);
    }
  }

  /** Otherwise the genre strategy returns a candidate that at most two others
      outrank (higher score, or the same score and earlier in the list): one of
      the first `min(3, n)` of the stable descending sort. */
  lemma GenrePicksFromTopThree(movies: seq<Movie>, rnd: real)
    requires IsDraw(rnd)
    requires |RatedPool(movies)| > 0
    requires exists i :: 0 <= i < |GenreCandidates(movies)| && GenreCandidates(movies)[i].score != 0.0
    ensures exists i :: && 0 <= i < |GenreCandidates(movies)|
                        && GenreBasedRecommendation(movies, rnd) == Some(GenreCandidates(movies)[i].movie)
                        && |Filter(OutranksOf(GenreCandidates(movies)[i]), GenreCandidates(movies))| < 3
  {
    var cands := GenreCandidates(movies);
    var sorted := SortByScore(cands);
    GenreTopScoreIsPositive(movies);
    var top := Take(sorted, 3);
    var k := PickIndex(|top|, rnd);
    OutrankedCountIsIndex(cands, k);
    SortedFromInput(cands, k);
    var i :| 0 <= i < |cands| && cands[i] == sorted[k];
    assert GenreBasedRecommendation(movies, rnd) == Some(cands[i].movie);
  }

  /** Every one of the first `min(3, n)` sorted candidates is drawn by some
      value of `Math.random()`: the pick among the top is random, not always
      the best. */
  lemma GenreReachesEveryTopCandidate(movies: seq<Movie>, i: nat)
    requires |RatedPool(movies)| > 0
    requires i < |GenreCandidates(movies)| && i < 3
    requires SortByScore(GenreCandidates(movies))[0].score != 0.0
    ensures exists rnd :: IsDraw(rnd)
                          && GenreBasedRecommendation(movies, rnd) == Some(SortByScore(GenreCandidates(movies))[i].movie)
  {
    var sorted := SortByScore(GenreCandidates(movies));
    var top := Take(sorted, 3);
    PickIndexReachesEvery(|top|, i);
    var rnd := i as real / |top| as real;
    assert GenreBasedRecommendation(movies, rnd) == Some(top[i].movie);
  }

  /** When some candidate scores, the best sorted candidate scores too. */
  lemma GenreTopScoreIsPositive(movies: seq<Movie>)
    requires exists i :: 0 <= i < |GenreCandidates(movies)| && GenreCandidates(movies)[i].score != 0.0
    ensures SortByScore(GenreCandidates(movies))[0].score > 0.0
  {
    var cands := GenreCandidates(movies);
    var i0 :| 0 <= i0 < |cands| && cands[i0].score != 0.0;
    AffinityIsNonNegative(GenresOf(NotSeenPool(movies)[i0]), movies);
    assert cands[i0].score > 0.0;
    SortedHeadIsFirstBest(cands);
  }

  /** A bare item for the worked examples below. */
  function Sample(id: string, status: Status, rating: Option<int>, genres: seq<string>): Movie
  {
    Movie(id, id, None, status, Some(genres), None, None, None, rating, None, None, None, None)
  }

  /** A collection with one Horror item rated 9, a not-seen Horror item and a
      not-seen Comedy item. */
  const HorrorFan: seq<Movie> := [
    Sample("1", NotSeen, None, ["Horror"]),
    Sample("2", Seen, Some(9), ["Horror"]),
    Sample("3", NotSeen, None, ["Comedy"])]

  lemma HorrorFanPools()
    ensures NotSeenPool(HorrorFan) == [HorrorFan[0], HorrorFan[2]]
    ensures RatedPool(HorrorFan) == [HorrorFan[1]]
  {
    var m := HorrorFan;
    assert m[1..] == [m[1], m[2]] && m[1..][1..] == [m[2]] && m[1..][1..][1..] == [];
    assert Filter(HighlyRated, [m[2]]) == [];
    assert Filter(WithStatus(NotSeen), [m[2]]) == [m[2]];
    assert Filter(WithStatus(NotSeen), [m[1], m[2]]) == [m[2]];
  }

  lemma HorrorFanCandidates()
    ensures GenreCandidates(HorrorFan) == [Scored(HorrorFan[0], 9.0, 0), Scored(HorrorFan[2], 0.0, 1)]
  {
    var m := HorrorFan;
    HorrorFanPools();
    GenreScoresAreWeights(m, "Horror");
    GenreScoresAreWeights(m, "Comedy");
    assert GenreWeight([m[1]], "Horror") == 9;
    assert GenreWeight([m[1]], "Comedy") == 0;
    assert Affinity(["Horror"], GenreScores(m)) == 9;
    assert Affinity(["Comedy"], GenreScores(m)) == 0;
  }

  /** The top-three slice includes candidates that score 0: in the collection
      above the not-seen Horror item scores 9 and the Comedy item 0, yet the
      draw 0.5 returns the Comedy item. */
  lemma ZeroScoreCandidateCanBeReturned()
    ensures GenreBasedRecommendation(HorrorFan, 0.5) == Some(HorrorFan[2])
  {
    HorrorFanPools();
    HorrorFanCandidates();
    var cands := GenreCandidates(HorrorFan);
    assert SortByScore(cands[1..]) == cands[1..];
    assert SortByScore(cands) == cands;
    assert PickIndex(2, 0.5) == 1;
  }

  // ---------------------------------------------------------------- rating

  /** `movies.some(m => m.rating)`. */
  predicate HasRatings(movies: seq<Movie>)
  {
    exists i :: 0 <= i < |movies| && TruthyInt(movies[i].rating)
  }

  /** `preferredGenres`: every genre some item rated 7 or more lists. */
  function PreferredGenres(rated: seq<Movie>): (r: set<string>)
    ensures forall g :: g in r <==> exists i :: 0 <= i < |rated| && g in GenresOf(rated[i])
  {
    if |rated| == 0 then {}
    else
      var rest := PreferredGenres(rated[1..]);
      assert forall i :: 1 <= i < |rated| ==> rated[i] == rated[1..][i - 1];
      (set g | g in GenresOf(rated[0])) + rest
  }

  /** `movie.genres.filter(g => preferredGenres.has(g)).length`: matching entries, repeats included. */
  function PreferredMatches(gs: seq<string>, preferred: set<string>): nat
  {
    |Filter((g: string) => g in preferred, gs)|
  }

  /** The matches lie between none and all of the entries: none when nothing
      is preferred, all when every entry is. */
  lemma PreferredMatchesBounds(gs: seq<string>, preferred: set<string>)
    ensures PreferredMatches(gs, preferred) <= |gs|
    ensures preferred == {} ==> PreferredMatches(gs, preferred) == 0
    ensures (forall k :: 0 <= k < |gs| ==> gs[k] in preferred) ==> PreferredMatches(gs, preferred) == |gs|
  {
    var p := (g: string) => g in preferred;
    if preferred == {} {
      FilterDropsAll(p, gs);
    }
    if forall k :: 0 <= k < |gs| ==> gs[k] in preferred {
      FilterKeepsAll(p, gs);
    }
  }

  /** The rating strategy's score: ten times the TMDB rating when it is truthy,
      plus five per genre entry in the preferred set. */
  function RatingScore(m: Movie, preferred: set<string>): (r: real)
    ensures var base := if TruthyReal(m.tmdbRating) then 10.0 * m.tmdbRating.value else 0.0;
            && base <= r <= base + 5.0 * |GenresOf(m)| as real
            && (preferred == {} ==> r == base)
            && ((forall k :: 0 <= k < |GenresOf(m)| ==> GenresOf(m)[k] in preferred) ==> r == base + 5.0 * |GenresOf(m)| as real)
  {
    PreferredMatchesBounds(GenresOf(m), preferred);
    (if TruthyReal(m.tmdbRating) then m.tmdbRating.value * 10.0 else 0.0)
    + 5.0 * PreferredMatches(GenresOf(m), preferred) as real
  }

  /** Asking for a recommendation without naming an algorithm uses the random
      strategy. */
  lemma DefaultIsRandom(movies: seq<Movie>, rnd: real)
    requires IsDraw(rnd)
    ensures Recommend(movies, DefaultAlgorithm, rnd) == RandomRecommendation(movies, rnd)
  {
  }

  /** The scored "Want to Watch" list of the rating strategy. */
  function RatingCandidates(movies: seq<Movie>): seq<Scored>
  {
    var preferred := PreferredGenres(RatedPool(movies));
    ScoreAll(NotSeenPool(movies), (m: Movie) => RatingScore(m, preferred))
  }

  /** A candidate's rating score: its truthy TMDB rating times ten, plus five
      for each of its genre entries that some item rated 7 or more lists. When
      the collection has ratings but none of 7 or more, the preferred set is
      empty and only the TMDB rating counts. */
  lemma RatingCandidateScore(movies: seq<Movie>, i: nat)
    requires i < |NotSeenPool(movies)|
    ensures var m := NotSeenPool(movies)[i];
            var matches := |Filter((g: string) => exists j :: 0 <= j < |RatedPool(movies)| && g in GenresOf(RatedPool(movies)[j]), GenresOf(m))|;
            && RatingCandidates(movies)[i].movie == m
            && RatingCandidates(movies)[i].score
               == (if TruthyReal(m.tmdbRating) then 10.0 * m.tmdbRating.value else 0.0) + 5.0 * matches as real
    ensures |RatedPool(movies)| == 0 ==>
            RatingCandidates(movies)[i].score
            == if TruthyReal(NotSeenPool(movies)[i].tmdbRating) then 10.0 * NotSeenPool(movies)[i].tmdbRating.value else 0.0
  {
    var m := NotSeenPool(movies)[i];
    var rated := RatedPool(movies);
    var preferred := PreferredGenres(rated);
    var p := (g: string) => g in preferred;
    var q := (g: string) => exists j :: 0 <= j < |rated| && g in GenresOf(rated[j]);
    FilterSamePredicate(p, q, GenresOf(m));
    if |rated| == 0 {
      FilterDropsAll(p, GenresOf(m));
    }
  }

  /** `getHighestRatedRecommendation`. */
  function HighestRatedRecommendation(movies: seq<Movie>, rnd: real): (r: Option<Movie>)
    requires IsDraw(rnd)
    ensures r.None? <==> |NotSeenPool(movies)| == 0
    ensures r.Some? ==> r.value in NotSeenPool(movies)
  {
    var pool := NotSeenPool(movies);
    if |pool| == 0 then None
    else if !HasRatings(movies) then RandomRecommendation(movies, rnd)
    else
      var sorted := SortByScore(RatingCandidates(movies));
      SortedFromInput(RatingCandidates(movies), 0);
      if sorted[0].score == 0.0 then RandomRecommendation(movies, rnd)
      else Some(sorted[0].movie)
  }

  /** With some rating in the collection, the rating strategy looks at the
      first candidate with the highest score: it returns that candidate when the
      score is not 0 and falls back to random when it is. Without ratings it is
      the random strategy. */
  lemma HighestRatedPicksFirstBest(movies: seq<Movie>, rnd: real)
    requires IsDraw(rnd)
    requires |NotSeenPool(movies)| > 0
    ensures !HasRatings(movies) ==> HighestRatedRecommendation(movies, rnd) == RandomRecommendation(movies, rnd)
    ensures HasRatings(movies) ==>
      exists i :: && IsFirstBest(RatingCandidates(movies), i)
                  && HighestRatedRecommendation(movies, rnd)
                     == if RatingCandidates(movies)[i].score == 0.0
                        then RandomRecommendation(movies, rnd)
                        else Some(NotSeenPool(movies)[i])
  {
    if HasRatings(movies) {
      var cands := RatingCandidates(movies);
      SortedHeadIsFirstBest(cands);
      var i :| IsFirstBest(cands, i) && SortByScore(cands)[0] == cands[i];
      assert cands[i].movie == NotSeenPool(movies)[i];
      assert HighestRatedRecommendation(movies, rnd)
             == if cands[i].score == 0.0 then RandomRecommendation(movies, rnd) else Some(cands[i].movie);
    }
  }

  // ---------------------------------------------------------------- dispatch

  /** The algorithm `getRecommendation` uses when the caller names none. */
  const DefaultAlgorithm: string := "random"

  /** `getRecommendation(movies, algorithm)`: 'genre' and 'rating' select their
      strategies and every other name, the default included, selects random. */
  function Recommend(movies: seq<Movie>, algorithm: string, rnd: real): (r: Option<Movie>)
    requires IsDraw(rnd)
    ensures r.None? <==> |NotSeenPool(movies)| == 0
    ensures r.Some? ==> r.value in NotSeenPool(movies)
    ensures algorithm == "genre" ==> r == GenreBasedRecommendation(movies, rnd)
    ensures algorithm == "rating" ==> r == HighestRatedRecommendation(movies, rnd)
    ensures algorithm != "genre" && algorithm != "rating" ==> r == RandomRecommendation(movies, rnd)
  {
    match algorithm
    case "genre" => GenreBasedRecommendation(movies, rnd)
    case "rating" => HighestRatedRecommendation(movies, rnd)
    case _ => RandomRecommendation(movies, rnd)
  }
}

=== FILE: seqs.dfy ===
/** Sequence operations the app borrows from JavaScript's `Array.prototype`
    (`filter`, `slice`), with the facts about them the rest of the model relies on. */
module Seqs {

  /** `s.filter(p)`: the elements that satisfy `p`, in their original order. */
  function Filter<T(==)>(p: T -> bool, s: seq<T>): (r: seq<T>)
    ensures |r| <= |s|
    ensures forall i :: 0 <= i < |r| ==> r[i] in s && p(r[i])
    ensures forall i :: 0 <= i < |s| && p(s[i]) ==> s[i] in r
  {
    if |s| == 0 then []
    else if p(s[0]) then [s[0]] + Filter(p, s[1..])
    else Filter(p, s[1..])
  }

  /** `s.slice(0, n)` for `n >= 0`: the first `min(n, |s|)` elements. */
  function Take<T>(s: seq<T>, n: nat): (r: seq<T>)
    ensures |r| == if n < |s| then n else |s|
    ensures forall i :: 0 <= i < |r| ==> r[i] == s[i]
  {
    if n < |s| then s[..n] else s
  }

  /** No element occurs twice. */
  predicate Distinct<T(==)>(s: seq<T>)
  {
    forall i, j :: 0 <= i < j < |s| ==> s[i] != s[j]
  }

  /** Filtering distributes over concatenation, so it keeps relative order. */
  lemma {:induction false} FilterConcat<T>(p: T -> bool, a: seq<T>, b: seq<T>)
    ensures Filter(p, a + b) == Filter(p, a) + Filter(p, b)
  {
    if |a| == 0 {
      assert a + b == b;
    } else {
      assert (a + b)[0] == a[0];
      assert (a + b)[1..] == a[1..] + b;
      FilterConcat(p, a[1..], b);
    }
  }

  /** A filter that every element passes returns its input unchanged. */
  lemma {:induction false} FilterKeepsAll<T>(p: T -> bool, s: seq<T>)
    requires forall i :: 0 <= i < |s| ==> p(s[i])
    ensures Filter(p, s) == s
  {
    if |s| > 0 {
      FilterKeepsAll(p, s[1..]);
      assert [s[0]] + s[1..] == s;
    }
  }

  /** A filter that no element passes returns the empty sequence. */
  lemma {:induction false} FilterDropsAll<T>(p: T -> bool, s: seq<T>)
    requires forall i :: 0 <= i < |s| ==> !p(s[i])
    ensures Filter(p, s) == []
  {
    if |s| > 0 {
      FilterDropsAll(p, s[1..]);
    }
  }

  /** A filter that holds on a prefix of `s` and fails on the rest returns
      that prefix. */
  lemma FilterPrefix<T>(p: T -> bool, s: seq<T>, k: nat)
    requires k <= |s|
    requires forall i :: 0 <= i < k ==> p(s[i])
    requires forall i :: k <= i < |s| ==> !p(s[i])
    ensures Filter(p, s) == s[..k]
  {
    assert s == s[..k] + s[k..];
    FilterConcat(p, s[..k], s[k..]);
    FilterKeepsAll(p, s[..k]);
    FilterDropsAll(p, s[k..]);
  }

  /** How many elements pass a filter does not depend on their order. */
  lemma {:induction false} FilterCountPermutation<T>(p: T -> bool, s: seq<T>, t: seq<T>)
    requires multiset(s) == multiset(t)
    ensures |Filter(p, s)| == |Filter(p, t)|
  {
    if |s| == 0 {
      assert |t| == |multiset(t)| == 0;
    } else {
      var x := s[0];
      assert x in multiset(t);
      var j :| 0 <= j < |t| && t[j] == x;
      var before, after := t[..j], t[j + 1..];
      assert t == before + [x] + after;
      assert s == [x] + s[1..];
      assert multiset(t) == multiset(before) + multiset{x} + multiset(after);
      assert multiset(s) == multiset{x} + multiset(s[1..]);
      assert multiset(before + after) == multiset(before) + multiset(after);
      assert multiset(before + after) == multiset(t) - multiset{x};
      assert multiset(s[1..]) == multiset(s) - multiset{x};
      FilterCountPermutation(p, s[1..], before + after);
      FilterConcat(p, before + [x], after);
      FilterConcat(p, before, [x]);
      FilterConcat(p, before, after);
    }
  }

  /** A filter of a sequence without repetitions has no repetitions. */
  lemma {:induction false} FilterKeepsDistinct<T>(p: T -> bool, s: seq<T>)
    requires Distinct(s)
    ensures Distinct(Filter(p, s))
  {
    if |s| > 0 {
      assert Distinct(s[1..]);
      FilterKeepsDistinct(p, s[1..]);
      assert s[0] !in s[1..];
    }
  }

  /** Filters with predicates that agree on every element give the same result. */
  lemma {:induction false} FilterSamePredicate<T>(p: T -> bool, q: T -> bool, s: seq<T>)
    requires forall i :: 0 <= i < |s| ==> p(s[i]) == q(s[i])
    ensures Filter(p, s) == Filter(q, s)
  {
    if |s| > 0 {
      FilterSamePredicate(p, q, s[1..]);
    }
  }
}

=== FILE: settings.dfy ===
/** The key test the settings screen runs after saving a key
    (src/components/Settings.jsx): it searches for `test` and reports success
    when the first result's id is not the text `mock-`. */
module SettingsKeyTest {
  import opened Wrappers
  import opened Seqs
  import opened Tmdb

  /** The success condition as written:
      `results.length > 0 && results[0].tmdbId !== 'mock-'`. */
  predicate PassesAsWritten(results: seq<SearchResult>)
  {
    |results| > 0 && results[0].tmdbId != Mock("mock-")
  }

  /** The success condition the test is meant to have: the first result came
      from TMDB, not from the mock fallback. */
  predicate PassesCorrected(results: seq<SearchResult>)
  {
    |results| > 0 && results[0].tmdbId.Remote?
  }

  /** `handleSave`: the key is stored; when it is non-empty the test search
      runs, and its verdict is reported (nothing is reported for an empty key). */
  function SaveAndTestAsWritten(s: Service, key: string, response: Response<seq<RawItem>>,
                                now: nat, year: nat, encode: string -> string): (verdict: Option<bool>)
    ensures verdict.None? <==> key == ""
    ensures key != "" ==>
      verdict.value == PassesAsWritten(SearchMovies(SetApiKey(s, key), "test", response, now, year, encode))
  {
    if key == "" then None
    else Some(PassesAsWritten(SearchMovies(SetApiKey(s, key), "test", response, now, year, encode)))
  }

  /** As written, a key whose request fails is reported as working: the
      failure yields the mock list, whose id is `mock-` plus a clock reading. */
  lemma FailedKeyPassesAsWritten(s: Service, key: string, now: nat, year: nat, encode: string -> string)
    requires key != ""
    ensures SaveAndTestAsWritten(s, key, Failed, now, year, encode) == Some(true)
  {
    MockIdIsNeverBare("test", now, year, encode);
  }

  /** The save-and-test step with the corrected success condition. */
  function SaveAndTest(s: Service, key: string, response: Response<seq<RawItem>>,
                       now: nat, year: nat, encode: string -> string): (verdict: Option<bool>)
    ensures verdict.None? <==> key == ""
    ensures key != "" ==>
      (verdict.value <==> response.Received? && |Filter(Listable, response.body)| > 0)
  {
    if key == "" then None
    else
      var results := SearchMovies(SetApiKey(s, key), "test", response, now, year, encode);
      assert response.Received? && |Filter(Listable, response.body)| > 0 ==> results[0].tmdbId.Remote?;
      Some(PassesCorrected(results))
  }

  /** With the corrected condition a failing key is reported as failing. */
  lemma FailedKeyFails(s: Service, key: string, now: nat, year: nat, encode: string -> string)
    requires key != ""
    ensures SaveAndTest(s, key, Failed, now, year, encode) == Some(false)
  {
  }
}

=== FILE: store.dfy ===
/** The collection store: the five state transformers over the list of tracked
    items (src/store/useMovieStore.js). The fresh id and the creation timestamp,
    which the source draws from `crypto.randomUUID()` and the clock, are parameters. */
module MovieStore {
  import opened Wrappers
  import opened Seqs
  import opened Movies

  /** The partial object handed to `updateMovie`: `Some` marks a property the
      object carries, and so one that overwrites the item's property. */
  datatype Patch = Patch(
    id: Option<string>,
    title: Option<string>,
    kind: Option<string>,
    status: Option<Status>,
    genres: Option<seq<string>>,
    year: Option<string>,
    runtime: Option<string>,
    poster: Option<string>,
    rating: Option<int>,
    review: Option<string>,
    watchedAt: Option<string>,
    addedAt: Option<string>,
    tmdbRating: Option<real>)

  /** A patch with no properties. */
  const EmptyPatch := Patch(None, None, None, None, None, None, None, None, None, None, None, None, None)

  /** A plain property after the spread: the update's value when it carries one,
      otherwise the item's. */
  predicate MergedValue<T(==)>(merged: T, current: T, update: Option<T>)
  {
    (update.Some? ==> merged == update.value) && (update.None? ==> merged == current)
  }

  /** An optional property after the spread: present with the update's value when
      the update carries it, otherwise whatever the item had. */
  predicate MergedOption<T(==)>(merged: Option<T>, current: Option<T>, update: Option<T>)
  {
    (update.Some? ==> merged == update) && (update.None? ==> merged == current)
  }

  /** One plain property of `{...m, ...u}`. */
  function Spread<T>(current: T, update: Option<T>): (r: T)
    ensures MergedValue(r, current, update)
  {
    if update.Some? then update.value else current
  }

  /** One optional property of `{...m, ...u}`. */
  function SpreadOption<T>(current: Option<T>, update: Option<T>): (r: Option<T>)
    ensures MergedOption(r, current, update)
  {
    if update.Some? then update else current
  }

  /** `{...m, ...u}`: the shallow merge, one property at a time. */
  function Merge(m: Movie, u: Patch): (r: Movie)
    ensures MergedValue(r.id, m.id, u.id)
    ensures MergedValue(r.title, m.title, u.title)
    ensures MergedOption(r.kind, m.kind, u.kind)
    ensures MergedValue(r.status, m.status, u.status)
    ensures MergedOption(r.genres, m.genres, u.genres)
    ensures MergedOption(r.year, m.year, u.year)
    ensures MergedOption(r.runtime, m.runtime, u.runtime)
    ensures MergedOption(r.poster, m.poster, u.poster)
    ensures MergedOption(r.rating, m.rating, u.rating)
    ensures MergedOption(r.review, m.review, u.review)
    ensures MergedOption(r.watchedAt, m.watchedAt, u.watchedAt)
    ensures MergedOption(r.addedAt, m.addedAt, u.addedAt)
    ensures MergedOption(r.tmdbRating, m.tmdbRating, u.tmdbRating)
  {
    Movie(
      Spread(m.id, u.id),
      Spread(m.title, u.title),
      SpreadOption(m.kind, u.kind),
      Spread(m.status, u.status),
      SpreadOption(m.genres, u.genres),
      SpreadOption(m.year, u.year),
      SpreadOption(m.runtime, u.runtime),
      SpreadOption(m.poster, u.poster),
      SpreadOption(m.rating, u.rating),
      SpreadOption(m.review, u.review),
      SpreadOption(m.watchedAt, u.watchedAt),
      SpreadOption(m.addedAt, u.addedAt),
      SpreadOption(m.tmdbRating, u.tmdbRating))
  }

  /** `addMovie(draft)`: appends one item carrying the draft's properties, with
      the fresh id, status not-seen and the creation time overriding whatever
      id, status or addedAt the draft had. */
  function AddMovie(movies: seq<Movie>, draft: Movie, freshId: string, now: string): (r: seq<Movie>)
    ensures |r| == |movies| + 1
    ensures r[..|movies|] == movies
    ensures r[|movies|].id == freshId && r[|movies|].status == NotSeen && r[|movies|].addedAt == Some(now)
    ensures r[|movies|].(id := draft.id, status := draft.status, addedAt := draft.addedAt) == draft
  {
    movies + [draft.(id := freshId, status := NotSeen, addedAt := Some(now))]
  }

  /** `updateMovieStatus(id, status)`: the items with that id get the new status
      and nothing else about the list changes. */
  function UpdateMovieStatus(movies: seq<Movie>, id: string, status: Status): (r: seq<Movie>)
    ensures |r| == |movies|
    ensures forall i :: 0 <= i < |r| ==>
      if movies[i].id == id
      then r[i].status == status && r[i].(status := movies[i].status) == movies[i]
      else r[i] == movies[i]
  {
    seq(|movies|, i requires 0 <= i < |movies| =>
      if movies[i].id == id then movies[i].(status := status) else movies[i])
  }

  /** `rateMovie(id, rating, review, watchedAt)`: the items with that id get the
      rating, review and watch date and move to seen; nothing else changes. */
  function RateMovie(movies: seq<Movie>, id: string, rating: int, review: string, watchedAt: string): (r: seq<Movie>)
    ensures |r| == |movies|
    ensures forall i :: 0 <= i < |r| ==>
      if movies[i].id == id
      then
        && r[i].rating == Some(rating) && r[i].review == Some(review)
        && r[i].watchedAt == Some(watchedAt) && r[i].status == Seen
        && r[i].(rating := movies[i].rating, review := movies[i].review,
                 watchedAt := movies[i].watchedAt, status := movies[i].status) == movies[i]
      else r[i] == movies[i]
  {
    seq(|movies|, i requires 0 <= i < |movies| =>
      if movies[i].id == id
      then movies[i].(rating := Some(rating), review := Some(review), watchedAt := Some(watchedAt), status := Seen)
      else movies[i])
  }

  /** `updateMovie(id, updates)`: the items with that id become the shallow merge
      of themselves with the updates; every other item is unchanged. */
  function UpdateMovie(movies: seq<Movie>, id: string, u: Patch): (r: seq<Movie>)
    ensures |r| == |movies|
    ensures forall i :: 0 <= i < |r| ==> r[i] == if movies[i].id == id then Merge(movies[i], u) else movies[i]
  {
    seq(|movies|, i requires 0 <= i < |movies| =>
      if movies[i].id == id then Merge(movies[i], u) else movies[i])
  }

  /** The filter predicate `m => m.id !== id`. */
  function OtherThan(id: string): Movie -> bool
  {
    (m: Movie) => m.id != id
  }

  /** `deleteMovie(id)`: drops every item with that id and keeps all others. */
  function DeleteMovie(movies: seq<Movie>, id: string): (r: seq<Movie>)
    ensures |r| <= |movies|
    ensures forall i :: 0 <= i < |r| ==> r[i].id != id && r[i] in movies
    ensures forall i :: 0 <= i < |movies| && movies[i].id != id ==> movies[i] in r
  {
    Filter(OtherThan(id), movies)
  }

  /** Deleting keeps the survivors in their relative order: deleting from a
      concatenation deletes from each part. */
  lemma DeleteKeepsOrder(a: seq<Movie>, b: seq<Movie>, id: string)
    ensures DeleteMovie(a + b, id) == DeleteMovie(a, id) + DeleteMovie(b, id)
  {
    FilterConcat(OtherThan(id), a, b);
  }

  /** Deleting an id no item carries leaves the list as it was. */
  lemma DeleteAbsentIsNoop(movies: seq<Movie>, id: string)
    requires id !in Ids(movies)
    ensures DeleteMovie(movies, id) == movies
  {
    forall i | 0 <= i < |movies|
      ensures OtherThan(id)(movies[i])
    {
      assert Ids(movies)[i] == movies[i].id;
    }
    FilterKeepsAll(OtherThan(id), movies);
  }

  /** Deleting the item just added, under its fresh id, undoes the add. */
  lemma AddThenDeleteRestores(movies: seq<Movie>, draft: Movie, freshId: string, now: string)
    requires freshId !in Ids(movies)
    ensures DeleteMovie(AddMovie(movies, draft, freshId, now), freshId) == movies
  {
    var added := draft.(id := freshId, status := NotSeen, addedAt := Some(now));
    DeleteKeepsOrder(movies, [added], freshId);
    DeleteAbsentIsNoop(movies, freshId);
    FilterDropsAll(OtherThan(freshId), [added]);
  }

  /** The three updates keep every item's id, in order, unless the patch of
      `updateMovie` itself carries an id. */
  lemma UpdatesKeepIds(movies: seq<Movie>, id: string, status: Status, rating: int,
                       review: string, watchedAt: string, u: Patch)
    requires u.id.None?
    ensures Ids(UpdateMovieStatus(movies, id, status)) == Ids(movies)
    ensures Ids(RateMovie(movies, id, rating, review, watchedAt)) == Ids(movies)
    ensures Ids(UpdateMovie(movies, id, u)) == Ids(movies)
  {
  }

  /** An update addressed to an id no item carries changes nothing. */
  lemma UpdatesOfAbsentIdAreNoops(movies: seq<Movie>, id: string, status: Status, rating: int,
                                  review: string, watchedAt: string, u: Patch)
    requires id !in Ids(movies)
    ensures UpdateMovieStatus(movies, id, status) == movies
    ensures RateMovie(movies, id, rating, review, watchedAt) == movies
    ensures UpdateMovie(movies, id, u) == movies
  {
    assert forall i :: 0 <= i < |movies| ==> movies[i].id != id by {
      forall i | 0 <= i < |movies| ensures movies[i].id != id {
        assert Ids(movies)[i] == movies[i].id;
      }
    }
  }

  /** The empty patch leaves every item as it is. */
  lemma EmptyUpdateIsNoop(movies: seq<Movie>, id: string)
    ensures UpdateMovie(movies, id, EmptyPatch) == movies
  {
  }

  /** Id uniqueness survives every store operation: an add under a fresh id,
      the three updates (an `updateMovie` whose patch has no id) and a delete. */
  lemma StoreKeepsIdsUnique(movies: seq<Movie>, draft: Movie, freshId: string, now: string,
                            id: string, status: Status, rating: int, review: string,
                            watchedAt: string, u: Patch)
    requires UniqueIds(movies)
    requires freshId !in Ids(movies)
    requires u.id.None?
    ensures UniqueIds(AddMovie(movies, draft, freshId, now))
    ensures UniqueIds(UpdateMovieStatus(movies, id, status))
    ensures UniqueIds(RateMovie(movies, id, rating, review, watchedAt))
    ensures UniqueIds(UpdateMovie(movies, id, u))
    ensures UniqueIds(DeleteMovie(movies, id))
  {
    var added := AddMovie(movies, draft, freshId, now);
    forall i, j | 0 <= i < j < |added| ensures added[i].id != added[j].id {
      if j == |movies| {
        assert Ids(movies)[i] == movies[i].id;
      }
    }
    UpdatesKeepIds(movies, id, status, rating, review, watchedAt, u);
    DeleteKeepsIdsUnique(movies, id);
  }

  lemma {:induction false} DeleteKeepsIdsUnique(movies: seq<Movie>, id: string)
    requires UniqueIds(movies)
    ensures UniqueIds(DeleteMovie(movies, id))
  {
    if |movies| > 0 {
      var rest := movies[1..];
      DeleteKeepsIdsUnique(rest, id);
      var tail := DeleteMovie(rest, id);
      forall k | 0 <= k < |tail| ensures tail[k].id != movies[0].id {
        var j :| 0 <= j < |rest| && rest[j] == tail[k];
        assert movies[j + 1] == rest[j];
      }
    }
  }
}

=== FILE: text.dfy ===
/** The string operations the components use: `trim`, `replace` of the first
    match, `toUpperCase`, `split(sep)[0]` and the decimal rendering of a number. */
module Text {

  /** The characters `String.prototype.trim` strips: the ECMAScript white space
      and line terminator code points. */
  predicate IsJsSpace(c: char)
  {
    || c == ' ' || c == '\t' || c == '\n' || c == '\r'
    || c == '\U{000B}' || c == '\U{000C}' || c == '\U{00A0}' || c == '\U{1680}'
    || ('\U{2000}' <= c <= '\U{200A}')
    || c == '\U{2028}' || c == '\U{2029}' || c == '\U{202F}' || c == '\U{205F}'
    || c == '\U{3000}' || c == '\U{FEFF}'
  }

  /** Every character is white space (the empty string included). */
  predicate Blank(s: string)
  {
    forall i :: 0 <= i < |s| ==> IsJsSpace(s[i])
  }

  /** `s.trimStart()`: the suffix left after dropping leading white space. */
  function TrimStart(s: string): (r: string)
    ensures |r| <= |s| && r == s[|s| - |r|..]
    ensures forall i :: 0 <= i < |s| - |r| ==> IsJsSpace(s[i])
    ensures |r| > 0 ==> !IsJsSpace(r[0])
  {
    if |s| > 0 && IsJsSpace(s[0]) then TrimStart(s[1..]) else s
  }

  /** `s.trimEnd()`: the prefix left after dropping trailing white space. */
  function TrimEnd(s: string): (r: string)
    ensures |r| <= |s| && r == s[..|r|]
    ensures forall i :: |r| <= i < |s| ==> IsJsSpace(s[i])
    ensures |r| > 0 ==> !IsJsSpace(r[|r| - 1])
  {
    if |s| > 0 && IsJsSpace(s[|s| - 1]) then TrimEnd(s[..|s| - 1]) else s
  }

  /** `s.trim()`. */
  function Trim(s: string): string
  {
    TrimEnd(TrimStart(s))
  }

  /** `!s.trim()` holds exactly when the string is blank. */
  lemma TrimEmptyIffBlank(s: string)
    ensures Trim(s) == "" <==> Blank(s)
  {
  }

  /** `s.replace(from, to)` with a one-character pattern: only the first
      occurrence of `from` is replaced. */
  function ReplaceFirst(s: string, from: char, to: char): (r: string)
    ensures |r| == |s|
    ensures forall i :: 0 <= i < |s| ==>
      r[i] == if s[i] == from && from !in s[..i] then to else s[i]
  {
    if |s| == 0 then ""
    else if s[0] == from then [to] + s[1..]
    else
      var rest := ReplaceFirst(s[1..], from, to);
      assert forall i :: 1 <= i < |s| ==> s[..i] == [s[0]] + s[1..][..i - 1];
      [s[0]] + rest
  }

  /** Replacing a character that does not occur changes nothing. */
  lemma ReplaceFirstAbsent(s: string, from: char, to: char)
    requires from !in s
    ensures ReplaceFirst(s, from, to) == s
  {
    var r := ReplaceFirst(s, from, to);
    forall i | 0 <= i < |s| ensures r[i] == s[i] {
      assert s[i] != from;
    }
  }

  /** `toUpperCase` on one character, for the ASCII letters. */
  function UpperChar(c: char): (r: char)
    ensures 'a' <= c <= 'z' ==> r as int == c as int - 32
    ensures !('a' <= c <= 'z') ==> r == c
  {
    if 'a' <= c <= 'z' then (c as int - 32) as char else c
  }

  /** `s.toUpperCase()`, for ASCII text. */
  function Upper(s: string): (r: string)
    ensures |r| == |s|
    ensures forall i :: 0 <= i < |s| ==> r[i] == UpperChar(s[i])
  {
    seq(|s|, i requires 0 <= i < |s| => UpperChar(s[i]))
  }

  /** `s.split(sep)[0]`: the text before the first `sep`, or all of `s`. */
  function BeforeFirst(s: string, sep: char): (r: string)
    ensures |r| <= |s| && r == s[..|r|]
    ensures sep !in r
    ensures |r| < |s| ==> s[|r|] == sep
  {
    if |s| == 0 || s[0] == sep then ""
    else [s[0]] + BeforeFirst(s[1..], sep)
  }

  /** The text before the first separator of `head + [sep] + tail` is `head`
      when `head` holds no separator. */
  lemma {:induction false} BeforeFirstOfJoin(head: string, sep: char, tail: string)
    requires sep !in head
    ensures BeforeFirst(head + [sep] + tail, sep) == head
  {
    if |head| > 0 {
      assert (head + [sep] + tail)[1..] == head[1..] + [sep] + tail;
      BeforeFirstOfJoin(head[1..], sep, tail);
    }
  }

  /** The decimal digit for `d`. */
  function Digit(d: nat): (c: char)
    requires d < 10
    ensures '0' <= c <= '9'
  {
    ['0', '1', '2', '3', '4', '5', '6', '7', '8', '9'][d]
  }

  /** `String(n)` for a natural number: its decimal digits, never empty. */
  function Decimal(n: nat): (r: string)
    ensures |r| > 0
    ensures forall i :: 0 <= i < |r| ==> '0' <= r[i] <= '9'
  {
    if n < 10 then [Digit(n)] else Decimal(n / 10) + [Digit(n % 10)]
  }
}

=== FILE: tmdb_api.dfy ===
/** The metadata service (src/services/tmdbApi.js): the stored API key, the
    choice between real and mock results, and the mappings from the TMDB JSON
    shapes to the app's records. The HTTP request is a parameter: the response
    it produced (`Failed` for a network error, a non-OK status or a body whose
    decoding throws). The clock and `encodeURIComponent` are parameters too. */
module Tmdb {
  import opened Wrappers
  import opened Seqs
  import opened Movies
  import opened Text

  /** The service's one piece of state. */
  datatype Service = Service(apiKey: string)

  /** `localStorage.getItem('tmdb_api_key') || ''`: the stored key, or `''`
      when none (or an empty one) is stored. */
  function NewService(stored: Option<string>): (s: Service)
    ensures TruthyText(stored) ==> s.apiKey == stored.value
    ensures !TruthyText(stored) ==> s.apiKey == ""
  {
    Service(if TruthyText(stored) then stored.value else "")
  }

  /** `setApiKey(key)`: the service holds the key, which is also saved. */
  function SetApiKey(s: Service, key: string): (r: Service)
    ensures r.apiKey == key
  {
    Service(key)
  }

  /** `getApiKey()`: the stored key, empty exactly when the service has none. */
  function GetApiKey(s: Service): (r: string)
    ensures r == "" <==> !HasApiKey(s)
  {
    s.apiKey
  }

  /** `!!this.apiKey`. */
  predicate HasApiKey(s: Service): (r: bool)
    ensures r <==> TruthyText(Some(s.apiKey))
  {
    s.apiKey != ""
  }

  /** The key read back is the key set last, and the service has a key
      exactly when that key is non-empty. */
  lemma KeyRoundTrip(s: Service, key: string, other: string)
    ensures GetApiKey(SetApiKey(s, key)) == key
    ensures HasApiKey(SetApiKey(s, key)) <==> key != ""
    ensures GetApiKey(SetApiKey(SetApiKey(s, other), key)) == key
    ensures HasApiKey(NewService(None)) == false
  {
  }

  /** A result's id: TMDB's numeric id, or the text id of a mock result. */
  datatype TmdbId = Remote(n: int) | Mock(text: string)

  /** One element of `data.results` of a multi search. */
  datatype RawItem = RawItem(
    id: int, mediaType: string, title: Option<string>, name: Option<string>,
    releaseDate: Option<string>, firstAirDate: Option<string>,
    posterPath: Option<string>, overview: Option<string>)

  /** A formatted search result. */
  datatype SearchResult = SearchResult(
    tmdbId: TmdbId, title: Option<string>, year: Option<string>,
    poster: Option<string>, mediaType: string, overview: Option<string>)

  /** The image address a poster path is appended to. */
  const ImageBase := "https://image.tmdb.org/t/p/w500"

  /** `date?.split('-')[0]`: the text before the first dash, missing when the
      date is. */
  function YearOf(date: Option<string>): (r: Option<string>)
    ensures r.Some? <==> date.Some?
    ensures r.Some? ==> |r.value| <= |date.value| && r.value == date.value[..|r.value|] && '-' !in r.value
    ensures r.Some? && |r.value| < |date.value| ==> date.value[|r.value|] == '-'
  {
    if date.Some? then Some(BeforeFirst(date.value, '-')) else None
  }

  /** The year of an ISO date is the text before its first dash, whatever its
      length. */
  lemma IsoDateYear(y: string, rest: string)
    requires '-' !in y
    ensures YearOf(Some(y + "-" + rest)) == Some(y)
  {
    BeforeFirstOfJoin(y, '-', rest);
  }

  /** `path ? ImageBase + path : null`. */
  function PosterUrl(path: Option<string>): (r: Option<string>)
    ensures r.Some? <==> TruthyText(path)
    ensures r.Some? ==> r.value == ImageBase + path.value && |r.value| > |ImageBase|
  {
    if TruthyText(path) then Some(ImageBase + path.value) else None
  }

  /** The app's label for a TMDB media type: `'TV Show'` for `tv`, `'Movie'`
      for anything else. */
  function MediaLabel(mediaType: string): (r: string)
    ensures r == "TV Show" <==> mediaType == "tv"
    ensures r == "TV Show" || r == "Movie"
  {
    if mediaType == "tv" then "TV Show" else "Movie"
  }

  /** `formatSearchResult(item)`: a movie's title and release date, any other
      item's name and first air date. */
  function FormatSearchResult(item: RawItem): (r: SearchResult)
    ensures r.tmdbId == Remote(item.id)
    ensures item.mediaType == "movie" ==> r.title == item.title && r.year == YearOf(item.releaseDate)
    ensures item.mediaType != "movie" ==> r.title == item.name && r.year == YearOf(item.firstAirDate)
    ensures r.poster == PosterUrl(item.posterPath)
    ensures r.mediaType == MediaLabel(item.mediaType)
    ensures r.overview == item.overview
  {
    var isMovie := item.mediaType == "movie";
    SearchResult(
      Remote(item.id),
      if isMovie then item.title else item.name,
      if isMovie then YearOf(item.releaseDate) else YearOf(item.firstAirDate),
      PosterUrl(item.posterPath),
      MediaLabel(item.mediaType),
      item.overview)
  }

  /** The items a search keeps: movies and shows, not people. */
  predicate Listable(item: RawItem): (r: bool)
    ensures r ==> (FormatSearchResult(item).mediaType == "TV Show" <==> item.mediaType == "tv")
    ensures r ==> (FormatSearchResult(item).mediaType == "Movie" <==> item.mediaType == "movie")
  {
    item.mediaType == "movie" || item.mediaType == "tv"
  }

  /** The most results a search returns. */
  const MaxResults := 10

  /** `results.filter(listable).slice(0, 10).map(formatSearchResult)`: the
      first ten listable items, in their order, formatted. */
  function SearchResultsOf(items: seq<RawItem>): (r: seq<SearchResult>)
    ensures |r| <= MaxResults
    ensures |r| == if |Filter(Listable, items)| < MaxResults then |Filter(Listable, items)| else MaxResults
    ensures forall i :: 0 <= i < |r| ==> r[i] == FormatSearchResult(Filter(Listable, items)[i])
  {
    var kept := Take(Filter(Listable, items), MaxResults);
    seq(|kept|, i requires 0 <= i < |kept| => FormatSearchResult(kept[i]))
  }

  /** Every real result comes from a listable item and is labelled a movie or
      a show accordingly. */
  lemma ResultsComeFromListable(items: seq<RawItem>, i: nat)
    requires i < |SearchResultsOf(items)|
    ensures exists j :: 0 <= j < |items| && Listable(items[j])
                        && SearchResultsOf(items)[i] == FormatSearchResult(items[j])
    ensures SearchResultsOf(items)[i].tmdbId.Remote?
  {
    var item := Filter(Listable, items)[i];
    assert item in items && Listable(item);
  }

  /** The outcome of an HTTP request as the service sees it. */
  datatype Response<T> = Failed | Received(body: T)

  /** The poster address of a mock result; the encoded query follows it. */
  const MockPoster := "https://placehold.co/500x750/4c1d95/c4b5fd?text="
  const MockOverview := "Mock result - Add your TMDB API key in Settings for real data"

  /** `getMockResults(query)`: one result titled by the query, with id
      `mock-` followed by the clock reading `now` (milliseconds) and the
      current year. */
  function MockResults(query: string, now: nat, year: nat, encode: string -> string): (r: seq<SearchResult>)
    ensures |r| == 1
    ensures r[0].title == Some(query) && r[0].mediaType == "Movie"
    ensures r[0].tmdbId == Mock("mock-" + Decimal(now))
    ensures r[0].year == Some(Decimal(year))
    ensures r[0].poster == Some(MockPoster + encode(query))
  {
    [SearchResult(Mock("mock-" + Decimal(now)), Some(query), Some(Decimal(year)),
                  Some(MockPoster + encode(query)), "Movie", Some(MockOverview))]
  }

  /** `searchMovies(query)`: without a key, or when the request fails, the
      mock list; otherwise the real results. */
  function SearchMovies(s: Service, query: string, response: Response<seq<RawItem>>,
                        now: nat, year: nat, encode: string -> string): (r: seq<SearchResult>)
    ensures !HasApiKey(s) || response.Failed? ==> r == MockResults(query, now, year, encode)
    ensures HasApiKey(s) && response.Received? ==> r == SearchResultsOf(response.body)
    ensures |r| <= MaxResults
  {
    if !HasApiKey(s) then MockResults(query, now, year, encode)
    else match response
      case Failed => MockResults(query, now, year, encode)
      case Received(items) => SearchResultsOf(items)
  }

  /** A mock id is never the bare `mock-`: a clock reading always adds digits. */
  lemma MockIdIsNeverBare(query: string, now: nat, year: nat, encode: string -> string)
    ensures MockResults(query, now, year, encode)[0].tmdbId != Mock("mock-")
  {
    var id := "mock-" + Decimal(now);
    assert |id| > |"mock-"|;
  }

  /** The raw details object (`append_to_response=credits`); `cast` holds the
      cast names and is missing when `credits` or `credits.cast` is. */
  datatype RawDetails = RawDetails(
    id: int, title: Option<string>, name: Option<string>,
    releaseDate: Option<string>, firstAirDate: Option<string>,
    posterPath: Option<string>, runtime: Option<int>, episodeRunTime: Option<seq<int>>,
    genres: Option<seq<string>>, cast: Option<seq<string>>,
    overview: Option<string>, voteAverage: Option<real>)

  /** The formatted details record. */
  datatype Details = Details(
    tmdbId: int, title: Option<string>, year: Option<string>, poster: Option<string>,
    runtime: Option<int>, genres: seq<string>, actors: seq<string>,
    overview: Option<string>, mediaType: string, tmdbRating: Option<real>)

  /** The most actors a details record lists. */
  const MaxActors := 5

  /** `formatMovieDetails(data, mediaType)`: the runtime of a movie, the first
      episode run time of a show (missing for an empty list), the genre names
      (`[]` when missing) and at most the first five cast names. */
  function FormatMovieDetails(data: RawDetails, mediaType: string): (r: Details)
    ensures r.tmdbId == data.id
    ensures mediaType == "movie" ==> r.title == data.title && r.year == YearOf(data.releaseDate)
                                     && r.runtime == data.runtime
    ensures mediaType != "movie" ==> r.title == data.name && r.year == YearOf(data.firstAirDate)
    ensures mediaType != "movie" ==>
              r.runtime == (if data.episodeRunTime.Some? && |data.episodeRunTime.value| > 0
                            then Some(data.episodeRunTime.value[0]) else None)
    ensures r.poster == PosterUrl(data.posterPath)
    ensures r.genres == data.genres.GetOr([])
    ensures |r.actors| <= MaxActors
    ensures data.cast.Some? ==> r.actors == Take(data.cast.value, MaxActors)
    ensures data.cast.None? ==> r.actors == []
    ensures r.mediaType == MediaLabel(mediaType) && r.tmdbRating == data.voteAverage
  {
    var isMovie := mediaType == "movie";
    Details(
      data.id,
      if isMovie then data.title else data.name,
      if isMovie then YearOf(data.releaseDate) else YearOf(data.firstAirDate),
      PosterUrl(data.posterPath),
      if isMovie then data.runtime
      else if data.episodeRunTime.Some? && |data.episodeRunTime.value| > 0 then Some(data.episodeRunTime.value[0])
      else None,
      data.genres.GetOr([]),
      if data.cast.Some? then Take(data.cast.value, MaxActors) else [],
      data.overview,
      MediaLabel(mediaType),
      data.voteAverage)
  }

  /** The default media type of a details request. */
  const DefaultDetailsType := "movie"

  /** `getMovieDetails(tmdbId, mediaType)`: nothing without a key or when the
      request fails, otherwise the formatted details. */
  function GetMovieDetails(s: Service, mediaType: string, response: Response<RawDetails>): (r: Option<Details>)
    ensures r.None? <==> !HasApiKey(s) || response.Failed?
    ensures r.Some? ==> r.value == FormatMovieDetails(response.body, mediaType)
  {
    if !HasApiKey(s) then None
    else match response
      case Failed => None
      case Received(data) => Some(FormatMovieDetails(data, mediaType))
  }

  /** A details request that names no media type asks for a movie: the
      details come back labelled a movie, with the title and release year. */
  lemma DefaultDetailsAreMovie(s: Service, data: RawDetails)
    requires HasApiKey(s)
    ensures var r := GetMovieDetails(s, DefaultDetailsType, Received(data));
            && r.Some? && r.value.mediaType == "Movie"
            && r.value.title == data.title && r.value.year == YearOf(data.releaseDate)
  {
  }

  /** The search and details formatters agree on an item's title, year,
      poster and label when asked with the item's own media type. */
  lemma FormattersAgree(item: RawItem, data: RawDetails)
    requires Listable(item)
    requires data.id == item.id && data.title == item.title && data.name == item.name
    requires data.releaseDate == item.releaseDate && data.firstAirDate == item.firstAirDate
    requires data.posterPath == item.posterPath
    ensures var r := FormatSearchResult(item);
            var d := FormatMovieDetails(data, item.mediaType);
            && r.tmdbId == Remote(d.tmdbId) && r.title == d.title && r.year == d.year
            && r.poster == d.poster && r.mediaType == d.mediaType
  {
  }
}

=== FILE: toggle.dfy ===
/** The multi-select toggle three components share
    (`list.includes(x) ? list.filter(y => y !== x) : [...list, x]`). */
module Toggles {
  import opened Seqs

  /** `list.filter(y => y !== x)`. */
  function Without<T(==)>(list: seq<T>, x: T): (r: seq<T>)
    ensures x !in r
    ensures forall i :: 0 <= i < |list| && list[i] != x ==> list[i] in r
    ensures forall i :: 0 <= i < |r| ==> r[i] in list
  {
    Filter((y: T) => y != x, list)
  }

  /** Removal keeps the order of the values it keeps: removing from a
      concatenation removes from each part. */
  lemma WithoutKeepsOrder<T>(a: seq<T>, b: seq<T>, x: T)
    ensures Without(a + b, x) == Without(a, x) + Without(b, x)
  {
    FilterConcat((y: T) => y != x, a, b);
  }

  /** Removing a value the list lacks changes nothing. */
  lemma WithoutAbsentIsIdentity<T>(list: seq<T>, x: T)
    requires x !in list
    ensures Without(list, x) == list
  {
    FilterKeepsAll((y: T) => y != x, list);
  }

  /** Removes every occurrence of a present value, keeping the others in
      order; appends an absent one once, at the end. */
  function Toggle<T(==)>(list: seq<T>, x: T): (r: seq<T>)
    ensures x !in list ==> r == list + [x]
    ensures x in list ==> r == Without(list, x)
    ensures x in r <==> x !in list
    ensures forall i :: 0 <= i < |list| && list[i] != x ==> list[i] in r
    ensures forall i :: 0 <= i < |r| ==> r[i] == x || r[i] in list
    ensures x in list ==> |r| < |list|
  {
    if x in list then
      var i :| 0 <= i < |list| && list[i] == x;
      FilterConcat((y: T) => y != x, list[..i], list[i..]);
      assert list == list[..i] + list[i..];
      assert list[i..] == [x] + list[i + 1..];
      FilterConcat((y: T) => y != x, [x], list[i + 1..]);
      Without(list, x)
    else list + [x]
  }

  /** Toggling an absent value twice gives back the original list. */
  lemma ToggleTwiceRestoresAbsent<T>(list: seq<T>, x: T)
    requires x !in list
    ensures Toggle(Toggle(list, x), x) == list
  {
    var p := (y: T) => y != x;
    FilterConcat(p, list, [x]);
    FilterKeepsAll(p, list);
    FilterDropsAll(p, [x]);
  }

  /** Toggling a present value twice keeps the same values but moves that one
      to the end, once. */
  lemma ToggleTwiceMovesPresentToEnd<T>(list: seq<T>, x: T)
    requires x in list
    ensures Toggle(Toggle(list, x), x) == Without(list, x) + [x]
    ensures forall y :: y in Toggle(Toggle(list, x), x) <==> y in list
  {
  }

  /** Toggling keeps a list free of repetitions. */
  lemma ToggleKeepsDistinct<T>(list: seq<T>, x: T)
    requires Distinct(list)
    ensures Distinct(Toggle(list, x))
  {
    if x in list {
      FilterKeepsDistinct((y: T) => y != x, list);
    }
  }

  /** In a list without repetitions, toggling a present value removes exactly
      one element and toggling an absent one adds exactly one. */
  lemma ToggleChangesLengthByOne<T>(list: seq<T>, x: T)
    requires Distinct(list)
    ensures x in list ==> |Toggle(list, x)| == |list| - 1
    ensures x !in list ==> |Toggle(list, x)| == |list| + 1
  {
    if x in list {
      var p := (y: T) => y != x;
      var i :| 0 <= i < |list| && list[i] == x;
      var before, after := list[..i], list[i + 1..];
      assert list == before + [x] + after;
      forall k | 0 <= k < |before| ensures p(before[k]) {
        assert before[k] == list[k];
      }
      forall k | 0 <= k < |after| ensures p(after[k]) {
        assert after[k] == list[i + 1 + k];
      }
      FilterConcat(p, before + [x], after);
      FilterConcat(p, before, [x]);
      FilterKeepsAll(p, before);
      FilterKeepsAll(p, after);
      FilterDropsAll(p, [x]);
    }
  }
}

=== FILE: wrappers.dfy ===
/** Optional values: the model's stand-in for a JavaScript property that may be
    `undefined` or `null`. */
module Wrappers {

  datatype Option<+T> = None | Some(value: T) {

    /** The value, or `default` when absent (JavaScript's `x ?? default`). */
    function GetOr(default: T): T
    {
      match this
      case Some(v) => v
      case None => default
    }
  }
}
